=== FILE: README.md ===
# SIL inliner: one inlining step, its debug scopes and its cost model

A Dafny model of the core of the Swift compiler's SIL inliner
(`lib/SILOptimizer/Utils/SILInliner.cpp`). It covers three parts.

- **The inlining driver.** `SILInliner::inlineFunction` clones the body of a
  callee function into a caller at a full apply site. A full apply site is an
  `apply` instruction or a `try_apply` terminator.
  - The callee's entry-block parameters are bound to the call's arguments.
  - The entry block is mapped onto the caller's block.
  - Every other reachable callee block gets a fresh block.
  - Every inlined instruction gets an inlined debug scope. Under mandatory
    inlining, `debug_value` and `debug_value_addr` are dropped.
  - The step computes one inlined location for the call site. In the source
    it labels the branches and `unreachable`s the step creates; the model's
    terminators carry no location, and the model gives the location to every
    clone instead.
  - An `apply` whose callee entry block returns takes the fast path: the uses
    of the apply are replaced by the returned value.
  - Any other `apply` splits the caller's block. This creates a return-to
    block with one owned parameter, and the apply's uses are redirected to
    that parameter.
  - A `try_apply` returns to its normal block.
  - Finally, returns and throws in the mapped blocks are rewritten into
    branches, or into `unreachable`.
- **The debug-scope stitcher.** `getOrCreateInlineScope` gives each callee
  scope its inlined image. It memoizes the images and recurses down the
  inlined-call-site chain.
- **The cost model.** `instructionInlineCost` and `getEnforcementCost`
  classify every canonical instruction kind as `Free` or `Expensive`.

Files:

- `wrappers.dfy`: `Option`.
- `cost_model.dfy`: module `CostModel`. It holds the instruction kinds and the
  cost function. The policy is also stated as classes of kinds, which serve
  as a reference definition, and the two are proved to agree.
- `sil.dfy`: module `Sil`. It holds values, instructions, terminators, blocks
  and functions, plus value renaming. Replace-all-uses-with and operand
  remapping are both built on renaming.
- `debug_scopes.dfy`: module `DebugScopes`.
  - Debug scopes live in an arena, a sequence indexed by scope id, and new
    scopes are appended to it.
  - A scope's parent and its inlined-call-site scope always have smaller
    indices. This is what makes both chains finite.
  - The module also holds the stitcher and its scope cache.
- `cfg.dfy`: module `Cfg`. It holds block lookup and the set of blocks
  reachable from the entry block. These are the blocks the cloner visits.
- `inliner.dfy`: module `Inliner`. It holds one inlining step and its
  properties.

The cloner's per-instruction visitor lives in `SILCloner`, which is not part of
this model. Here it is an abstract clone step:

- an instruction keeps its kind;
- its result and operands go through the value map;
- it gets the inlined scope, and (a choice of this model) the inlined
  location.

The value map has two parts:

- each entry parameter is bound to its argument;
- every value the clones define gets a fresh number above every value the
  caller uses.

Fresh block ids are chosen the same way.

## Model

| member | source | states |
|---|---|---|
| CostModel.EnforcementCost | lib/SILOptimizer/Utils/SILInliner.cpp:222-233 | Dynamic enforcement is expensive, and Static and Unsafe are free (both directions). Unknown enforcement is outside the function's domain. |
| CostModel.AccessMarkerCost | lib/SILOptimizer/Utils/SILInliner.cpp:293-304 | begin_access, end_access and the unpaired forms cost what their enforcement costs, so they are expensive exactly when dynamically enforced. An end_access costs what its begin_access costs. |
| CostModel.MetatypeCost | lib/SILOptimizer/Utils/SILInliner.cpp:317-324 | A metatype instruction is free exactly when its representation is thin. |
| CostModel.BuiltinCost | lib/SILOptimizer/Utils/SILInliner.cpp:447-456 | A builtin is free exactly when it calls the expect intrinsic or is the OnFastPath builtin. |
| CostModel.AlwaysFreeKindsAreFree | lib/SILOptimizer/Utils/SILInliner.cpp:237-339 | These kinds are free: literals, debug markers, lifetime and borrow markers, function and global references, typed address projections, aggregates, unchecked casts, the ObjC protocol and metatype-to-object conversions, and return/throw/unreachable. |
| CostModel.AlwaysExpensiveKindsAreExpensive | lib/SILOptimizer/Utils/SILInliner.cpp:306-445 | These kinds are expensive: the ObjC metatype and bridge-object conversions, and the listed allocation, call, load/store, reference-counting, dispatch, existential/enum, branch, switch and checked-cast kinds. |
| CostModel.PolicyClassesPartitionKinds | lib/SILOptimizer/Utils/SILInliner.cpp:237-471 | Every kind in the domain is always free, always expensive, or payload-dependent, and never both free and expensive. |
| CostModel.InstructionInlineCost | lib/SILOptimizer/Utils/SILInliner.cpp:237-471 | The cost function itself: one case per instruction kind, as the source's switch has it. It carries no contract of its own; `CostModel.CostMatchesPolicy` states what it computes. |
| CostModel.CostMatchesPolicy | lib/SILOptimizer/Utils/SILInliner.cpp:237-471 | Over the whole domain, the cost is Free exactly when the class policy says free. The domain excludes arguments, undef, the mark_* kinds and ObjectInst. |
| DebugScopes.GetOrCreateInlineScope | lib/SILOptimizer/Utils/SILInliner.cpp:200-216 | A null scope maps to the call-site scope with nothing changed. A cached scope returns its cached image with nothing changed. Otherwise a new scope is allocated at the end of the arena, above every scope that existed before, and the result is that stitched scope: it has the callee scope's location and parent, and its inlined-at is the stitch of the callee scope's inlined-call-site scope. The result is cached, the cache stays consistent, and scopes and entries are only ever added. |
| DebugScopes.AppendInlineScope | lib/SILOptimizer/Utils/SILInliner.cpp:208-215 | The new scope is appended at the end of the arena and cached for its callee scope. It is the stitched image of that scope, and every older cache entry remains a stitched image. |
| DebugScopes.StitchedReachesCallSite | lib/SILOptimizer/Utils/SILInliner.cpp:200-216 | From any stitched scope, following the inlined-call-site chain reaches the call-site scope. |
| DebugScopes.StitchedParentFunction | lib/SILOptimizer/Utils/SILInliner.cpp:200-216 | A stitched scope belongs to the same function as the call-site scope, whatever function the callee scope belonged to. |
| Inliner.CanInlineFunction | lib/SILOptimizer/Utils/SILInliner.cpp:20-22 | A site can be inlined exactly when it is not inside the callee itself. This is a definition with no contract; `Inliner.InlineFunction` requires it. |
| Inliner.RepresentationAllowed | lib/SILOptimizer/Utils/SILInliner.cpp:45-51 | Mandatory inlining never gets an ObjC method or a C function pointer; performance inlining may get any representation. This is a definition with no contract; `Inliner.InlineFunction` requires it. |
| Inliner.ApplyScope | lib/SILOptimizer/Utils/SILInliner.cpp:64-67 | The apply's debug scope, or the caller function's scope when the apply has none. This is a definition with no contract. |
| Inliner.CallSiteScope | lib/SILOptimizer/Utils/SILInliner.cpp:64-80 | Mandatory inlining reuses the apply's scope. Performance inlining appends a scope at the apply's location whose parent is the apply's scope and whose inlined-at is that scope's inlined-call-site. Either way the call-site scope belongs to the apply's function. |
| Inliner.InlineLocation | lib/SILOptimizer/Utils/SILInliner.cpp:55-62 | The inlined location records the call site's location. It is a mandatory-inlined location exactly under mandatory inlining. |
| Inliner.SeedValueMap | lib/SILOptimizer/Utils/SILInliner.cpp:94-99 | The keys are exactly the entry parameters. The i-th parameter maps to the i-th argument; for a repeated parameter, the first insertion wins. |
| Inliner.UndefPassesThrough | lib/SILOptimizer/Utils/SILInliner.cpp:94-147 | After one step the value map leaves `undef` unbound, so every clone reads `undef` wherever the callee did (and the fast path redirects to `undef` when the callee returns it). No block of the resulting caller defines `undef`, so none of these reads is captured by a caller value. |
| Inliner.InlineBlockMap | lib/SILOptimizer/Utils/SILInliner.cpp:101-110 | Exactly the reachable callee blocks are mapped. The entry block maps to the caller's block, and each other block maps to its own fresh id. |
| Cfg.ReachableBlocksCorrect | lib/SILOptimizer/Utils/SILInliner.cpp:108-110 | The work-list search finds exactly the blocks that some path from the entry block reaches. |
| Inliner.Kept | lib/SILOptimizer/Utils/SILInliner.cpp:185-198 | The instructions that get a clone. Every kept instruction comes from the input and is not dropped, and every instruction that is not dropped is kept. When nothing is dropped (always under performance inlining) the result is the input itself. |
| Inliner.KeptAppend | lib/SILOptimizer/Utils/SILInliner.cpp:185-198 | Dropping works one instruction at a time: the kept part of a concatenation is the concatenation of the kept parts. So the clones keep the callee's order. |
| Inliner.KeptKinds | lib/SILOptimizer/Utils/SILInliner.cpp:185-198 | Counted by kind, the kept instructions are the originals, except that mandatory inlining removes every debug_value and debug_value_addr. |
| Inliner.RewriteTerminator | lib/SILOptimizer/Utils/SILInliner.cpp:150-182 | `return v` becomes a branch to the return-to block whose one argument is the image of v. `throw v` becomes a branch to the error block whose one argument is the image of v, or `unreachable` under an apply. Any other terminator is cloned with its destinations and operands remapped. The result is never a return or a throw. |
| Inliner.LayoutFastPath | lib/SILOptimizer/Utils/SILInliner.cpp:112-121 | The entry's clones go right before the apply. Every use of the apply's result is redirected to the remapped returned value. No block is added, and every other block is unchanged apart from the renaming. |
| Inliner.LayoutSplit | lib/SILOptimizer/Utils/SILInliner.cpp:128-147 | The caller block is split at the apply. The cloned blocks and then the return-to block come right after it, so they are placed before the block that used to follow it. The return-to block has exactly one owned parameter of the apply's type. Uses of the result are renamed to that parameter. |
| Inliner.LayoutTryApply | lib/SILOptimizer/Utils/SILInliner.cpp:123-126 | For a try_apply nothing is split. The entry's clones are appended to the caller block, the cloned blocks follow it, and every other caller block is unchanged. |
| Inliner.InlineFunction | lib/SILOptimizer/Utils/SILInliner.cpp:35-183 | This is one inlining step. It requires that the site is not in the callee, that the site is in the caller, that mandatory inlining does not get an ObjC or C function, and one argument per entry parameter. It also requires that the callee reads only its own values (entry parameters, the values its cloned instructions and blocks define, and `undef`), that the arguments are caller values, and that the apply's result is not an argument. Neither function defines `undef`, and the callee defines each value once (no cloned definition is also an entry parameter). It returns the value and block maps, the inlined location and call-site scope, and a clone of every kept entry instruction and every other reachable block. Exits go to the try_apply's normal and error blocks, or to the split-off block under an apply. |
| Inliner.InlineSeedsEntry | lib/SILOptimizer/Utils/SILInliner.cpp:94-106 | After one step, entry parameter i is bound to argument i. Exactly the reachable callee blocks are mapped, and the entry block is mapped to the caller's block. |
| Inliner.InlineTakesPath | lib/SILOptimizer/Utils/SILInliner.cpp:112-147 | This lemma says which layout a step takes. An apply whose callee entry returns takes the fast path, clones no block and has no return-to block. Any other apply splits and returns to the new block, whose id and parameter are fresh. A try_apply returns to its normal block. |
| Inliner.TerminatorsRewritten | lib/SILOptimizer/Utils/SILInliner.cpp:149-182 | Off the fast path, every mapped block carries the rewritten terminator of its callee block. The caller's block carries the entry's, and each cloned block, whose id is the block map's image, carries its source's. So no mapped block ends in a return or a throw. |
| Inliner.SplitRedirectsUses | lib/SILOptimizer/Utils/SILInliner.cpp:142-146 | On a split, the return-to block's parameter is a value the caller never used. The caller's other blocks, the return-to block and the instructions left in the apply's block no longer read the apply's result. Each other block reads the parameter exactly where it read the result. The cloned blocks and the rewritten terminators are covered by `Inliner.ApplyResultUnused`. |
| Inliner.ApplyResultUnused | lib/SILOptimizer/Utils/SILInliner.cpp:114-147 | After an apply is inlined, on the fast path or the split, no block of the caller reads the apply's result. |
| Inliner.InlineKinds | lib/SILOptimizer/Utils/SILInliner.cpp:104-198 | Counted by kind, one step adds exactly the instructions of the callee's entry block and other reachable blocks, minus debug_value and debug_value_addr under mandatory inlining. Nothing of the caller's is lost. |
| Inliner.InlinedScopesInCaller | lib/SILOptimizer/Utils/SILInliner.cpp:69-80 | Every inlined instruction's scope belongs to the caller, and its inlined-call-site chain reaches the call-site scope. Under mandatory inlining that scope is the call-site scope itself. |

## Left out

- The generic cloner in `SILCloner` is not part of this model: the visitor, `remapValue`, and block-parameter mirroring. It is an abstract clone step that keeps kind, remaps result and operands, and sets location and scope.
  - The value map is computed in full before cloning, so the order in which blocks are visited does not matter.
  - Cloned blocks are laid out in the callee's block order, right after the caller's block.
- `setInlined()` (line 84) is left out. It is a reference-count side effect with no bearing on the inlined code.
- Which location a clone gets is decided by the cloner's hooks in the header, which are not part of this model. This file computes the inlined location (lines 55-62) and uses it only for the branches and `unreachable`s it creates (lines 157, 169, 174). The model gives every clone that location.
- Inliner.RewriteTerminator: terminators carry no location in the model, so the branches and `unreachable`s that replace returns and throws do not record the inlined location that the source gives them (lines 157, 169, 174).
- Inliner.InlineFunction: each step starts with an empty scope cache. The source never clears `InlinedScopeCache` (lines 204-214), so an inliner object used for a second step would still hold images stitched for the first step's call-site scope. The scope results hold for a cache that is empty when the step starts.
- Values in SIL belong to their function, so a callee never names a caller value. Values here are plain numbers, so `Inliner.InlineFunction` requires this instead: the callee reads only its own values and `undef`, the arguments are caller values, and the apply's result is not an argument.
- `undef` (`SILUndef`) belongs to no function and is never defined. It is the number `Sil.Undef` here. What SIL guarantees by construction, the model requires of both functions: no block parameter or instruction result is `Sil.Undef` (`Sil.BlocksDefineNoUndef`), and the callee is in SSA form as far as cloning needs it (`Inliner.DefinesOnce`). Under these, `Inliner.UndefPassesThrough` shows that `undef` comes through a step unchanged and uncaptured.
- `SILLocation` construction is reduced to a tag that records the call site's location.
- The SIL type machinery is reduced to small enumerations or opaque ids: metatype casts, intrinsic and builtin lookup, and ownership kinds other than `Owned`.
- Dominance, SSA validity and whole-function verification are left out. They are properties of the optimizer as a whole.
- Debug output and `llvm_unreachable` diagnostics become `requires` clauses. The same holds for the source's `assert`s: site in the caller, representation allowed, argument count. The assert at line 167 becomes this requires: a reachable callee `throw` under an `apply` needs the apply to be non-throwing.
- `SILBasicBlock::split(I)` moves the apply itself into the new block. So the return-to block starts with the apply, and uses of the apply are renamed to the block's parameter. The caller deletes the apply after inlining; that is outside this file and is not modelled.
- Inliner.LayoutTryApply: the source appends the rewritten entry terminator after the try_apply, and the caller later deletes the try_apply. A block here has a single terminator, so the rewritten terminator replaces the try_apply.
- The header's scope hook for clones (`getOpScope`) is not part of this model. Following the comment at lines 69-72, inlined instructions carry the call-site scope under mandatory inlining and the stitched scope under performance inlining.
- `getParentFunction` is not in this file. It is modelled as: follow the inlined-call-site scope if there is one, otherwise the parent scope, down to the owning function.
- Memory for new debug scopes lives in an arena, a sequence to which scopes are only appended. Freeing is not modelled.

=== FILE: cfg.dfy ===
/** The control-flow graph of a function: block lookup by id, and the set of
    blocks reachable from the entry block, computed by a work-list search.
    The cloner visits exactly these blocks, starting from the entry. */
module Cfg {
  import opened Sil

  predicate HasBlock(f: Function, l: BlockId) {
    l in Labels(f.blocks)
  }

  /** The block with id `l`. */
  function BlockOf(f: Function, l: BlockId): (b: Block)
    requires HasBlock(f, l)
    ensures b.id == l && b in f.blocks
  {
    var i := IndexOfLabel(f.blocks, l);
    assert i.Some? by {
      var j :| 0 <= j < |f.blocks| && f.blocks[j].id == l;
    }
    f.blocks[i.value]
  }

  function Succs(f: Function, l: BlockId): seq<BlockId>
    requires HasBlock(f, l)
  {
    BlockOf(f, l).term.Successors()
  }

  /** Every successor named by a terminator is a block of the function. */
  predicate SuccessorsExist(f: Function) {
    forall i, j :: 0 <= i < |f.blocks| && 0 <= j < |f.blocks[i].term.Successors()| ==>
      f.blocks[i].term.Successors()[j] in Labels(f.blocks)
  }

  /** A function body the inliner can walk: it has an entry block, block ids
      are unique, and branches only go to blocks of the function. */
  predicate WellFormedCfg(f: Function) {
    |f.blocks| > 0 && UniqueLabels(f.blocks) && SuccessorsExist(f)
  }

  function Entry(f: Function): BlockId
    requires |f.blocks| > 0
  {
    f.blocks[0].id
  }

  lemma SuccsAreBlocks(f: Function, l: BlockId, s: BlockId)
    requires WellFormedCfg(f) && HasBlock(f, l) && s in Succs(f, l)
    ensures HasBlock(f, s)
  {
    var b := BlockOf(f, l);
    var i :| 0 <= i < |f.blocks| && f.blocks[i] == b;
    var j :| 0 <= j < |b.term.Successors()| && b.term.Successors()[j] == s;
  }

  /** `p` is a path of the control-flow graph starting at the entry block. */
  ghost predicate IsEntryPath(f: Function, p: seq<BlockId>)
    requires |f.blocks| > 0
  {
    && |p| > 0
    && p[0] == Entry(f)
    && forall i :: 0 <= i < |p| - 1 ==> HasBlock(f, p[i]) && p[i + 1] in Succs(f, p[i])
  }

  ghost predicate Reachable(f: Function, l: BlockId)
    requires |f.blocks| > 0
  {
    exists p :: IsEntryPath(f, p) && p[|p| - 1] == l
  }

  lemma EntryReachable(f: Function)
    requires |f.blocks| > 0
    ensures Reachable(f, Entry(f))
  {
    assert IsEntryPath(f, [Entry(f)]);
  }

  lemma ReachableStep(f: Function, l: BlockId, s: BlockId)
    requires |f.blocks| > 0 && Reachable(f, l) && HasBlock(f, l) && s in Succs(f, l)
    ensures Reachable(f, s)
  {
    var p :| IsEntryPath(f, p) && p[|p| - 1] == l;
    var q := p + [s];
    assert forall i :: 0 <= i < |q| - 1 ==> HasBlock(f, q[i]) && q[i + 1] in Succs(f, q[i]) by {
      forall i | 0 <= i < |q| - 1
        ensures HasBlock(f, q[i]) && q[i + 1] in Succs(f, q[i])
      {
        if i < |p| - 1 {
          assert q[i] == p[i] && q[i + 1] == p[i + 1];
        }
      }
    }
    assert IsEntryPath(f, q);
  }

  /** A set of blocks holding the entry and closed under successors. */
  predicate ClosedFromEntry(f: Function, r: set<BlockId>)
    requires WellFormedCfg(f)
  {
    && Entry(f) in r
    && forall l :: l in r ==> HasBlock(f, l) && forall s :: s in Succs(f, l) ==> s in r
  }

  /** Such a set holds every block on every entry path. */
  lemma {:induction false} ClosedHoldsPath(f: Function, r: set<BlockId>, p: seq<BlockId>)
    requires WellFormedCfg(f) && ClosedFromEntry(f, r) && IsEntryPath(f, p)
    ensures p[|p| - 1] in r
    decreases |p|
  {
    if |p| > 1 {
      var q := p[..|p| - 1];
      assert IsEntryPath(f, q) by {
        forall i | 0 <= i < |q| - 1
          ensures HasBlock(f, q[i]) && q[i + 1] in Succs(f, q[i])
        {
          assert q[i] == p[i] && q[i + 1] == p[i + 1];
        }
      }
      ClosedHoldsPath(f, r, q);
      assert p[|p| - 1] in Succs(f, p[|p| - 2]);
    }
  }

  /** The blocks in `visited` have been expanded: each of their successors is
      visited or still on the work list. */
  predicate Expanded(f: Function, work: seq<BlockId>, visited: set<BlockId>)
    requires WellFormedCfg(f) && visited <= Labels(f.blocks)
  {
    forall l, s :: l in visited && s in Succs(f, l) ==> s in visited || s in work
  }

  /** Work-list search from the blocks on `work`, skipping `visited`. */
  function Explore(f: Function, work: seq<BlockId>, visited: set<BlockId>): (r: set<BlockId>)
    requires WellFormedCfg(f)
    requires visited <= Labels(f.blocks)
    requires forall w :: w in work ==> HasBlock(f, w)
    requires Expanded(f, work, visited)
    ensures visited <= r <= Labels(f.blocks)
    ensures forall w :: w in work ==> w in r
    ensures forall l, s :: l in r && s in Succs(f, l) ==> s in r
    decreases |Labels(f.blocks) - visited|, |work|
  {
    if work == [] then visited
    else
      var l := work[0];
      if l in visited then
        SkipStep(f, work, visited);
        Explore(f, work[1..], visited)
      else
        ExpandStep(f, work, visited);
        Explore(f, work[1..] + Succs(f, l), visited + {l})
  }

  lemma SkipStep(f: Function, work: seq<BlockId>, visited: set<BlockId>)
    requires WellFormedCfg(f) && visited <= Labels(f.blocks)
    requires work != [] && work[0] in visited
    requires Expanded(f, work, visited)
    ensures Expanded(f, work[1..], visited)
  {
    forall l, s | l in visited && s in Succs(f, l)
      ensures s in visited || s in work[1..]
    {
      if s in work && s != work[0] {
        var i :| 0 <= i < |work| && work[i] == s;
        assert work[1..][i - 1] == s;
      }
    }
  }

  lemma ExpandStep(f: Function, work: seq<BlockId>, visited: set<BlockId>)
    requires WellFormedCfg(f) && visited <= Labels(f.blocks)
    requires work != [] && work[0] !in visited
    requires forall w :: w in work ==> HasBlock(f, w)
    requires Expanded(f, work, visited)
    ensures visited + {work[0]} <= Labels(f.blocks)
    ensures forall w :: w in work[1..] + Succs(f, work[0]) ==> HasBlock(f, w)
    ensures Expanded(f, work[1..] + Succs(f, work[0]), visited + {work[0]})
    ensures |Labels(f.blocks) - (visited + {work[0]})| < |Labels(f.blocks) - visited|
  {
    var l := work[0];
    var next := work[1..] + Succs(f, l);
    SuccsAreBlocksAll(f, l);
    forall w | w in next ensures HasBlock(f, w) {
      if w in work[1..] {
        assert w in work;
      }
    }
    forall m, s | m in visited + {l} && s in Succs(f, m)
      ensures s in visited + {l} || s in next
    {
      if m == l {
        assert s in next;
      } else if s in work && s != l {
        var i :| 0 <= i < |work| && work[i] == s;
        assert next[i - 1] == s;
      }
    }
    var all := Labels(f.blocks);
    assert all - visited == (all - (visited + {l})) + {l};
  }

  lemma SuccsAreBlocksAll(f: Function, l: BlockId)
    requires WellFormedCfg(f) && HasBlock(f, l)
    ensures forall s :: s in Succs(f, l) ==> HasBlock(f, s)
  {
    forall s | s in Succs(f, l) ensures HasBlock(f, s) {
      SuccsAreBlocks(f, l, s);
    }
  }

  /** Everything the search adds is reachable, provided the blocks it starts
      from are. */
  lemma {:induction false} ExploreSound(f: Function, work: seq<BlockId>, visited: set<BlockId>)
    requires WellFormedCfg(f)
    requires visited <= Labels(f.blocks)
    requires forall w :: w in work ==> HasBlock(f, w)
    requires Expanded(f, work, visited)
    requires forall l :: l in visited ==> Reachable(f, l)
    requires forall w :: w in work ==> Reachable(f, w)
    ensures forall l :: l in Explore(f, work, visited) ==> Reachable(f, l)
    decreases |Labels(f.blocks) - visited|, |work|
  {
    if work != [] {
      var l := work[0];
      if l in visited {
        SkipStep(f, work, visited);
        ExploreSound(f, work[1..], visited);
      } else {
        var next := work[1..] + Succs(f, l);
        ExpandStep(f, work, visited);
        forall w | w in next
          ensures Reachable(f, w)
        {
          if w in work[1..] {
            assert w in work;
          } else {
            ReachableStep(f, l, w);
          }
        }
        ExploreSound(f, next, visited + {l});
      }
    }
  }

  /** The ids of the blocks reachable from the entry block. */
  function ReachableBlocks(f: Function): (r: set<BlockId>)
    requires WellFormedCfg(f)
    ensures Entry(f) in r && r <= Labels(f.blocks)
    ensures forall l, s :: l in r && s in Succs(f, l) ==> s in r
  {
    Explore(f, [Entry(f)], {})
  }

  /** The search finds exactly the blocks some entry path reaches. */
  lemma ReachableBlocksCorrect(f: Function)
    requires WellFormedCfg(f)
    ensures forall l :: l in ReachableBlocks(f) <==> Reachable(f, l)
  {
    var r := ReachableBlocks(f);
    EntryReachable(f);
    ExploreSound(f, [Entry(f)], {});
    forall l ensures l in r <==> Reachable(f, l) {
      if Reachable(f, l) {
        var p :| IsEntryPath(f, p) && p[|p| - 1] == l;
        ClosedHoldsPath(f, r, p);
      }
    }
  }

  /** When the entry block returns (or otherwise has no successor), the entry
      block is the only reachable block. */
  lemma NoSuccessorsOnlyEntry(f: Function)
    requires WellFormedCfg(f) && f.blocks[0].term.Successors() == []
    ensures ReachableBlocks(f) == {Entry(f)}
  {
    var r := ReachableBlocks(f);
    ReachableBlocksCorrect(f);
    assert BlockOf(f, Entry(f)) == f.blocks[0];
    assert ClosedFromEntry(f, {Entry(f)});
    forall l | l in r ensures l == Entry(f) {
      var p :| IsEntryPath(f, p) && p[|p| - 1] == l;
      ClosedHoldsPath(f, {Entry(f)}, p);
    }
  }
}

=== FILE: cost_model.dfy ===
/** The per-instruction inlining cost model: a total classification of every
    canonical in-function instruction kind as Free or Expensive. */
module CostModel {

  datatype InlineCost = Free | Expensive

  /** How an access (begin_access and friends) is enforced. */
  datatype AccessEnforcement = Unknown | Static | Dynamic | Unsafe

  /** The representation carried by a metatype instruction's result type. */
  datatype MetatypeRepresentation = Thin | Thick | ObjC

  /** What a builtin instruction calls: an LLVM intrinsic or a Swift builtin.
      Only the two identities the cost model looks at are distinguished. */
  datatype IntrinsicId = Expect | OtherIntrinsic
  datatype BuiltinValueKind = OnFastPath | OtherBuiltin
  datatype BuiltinInfo = BuiltinInfo(intrinsic: IntrinsicId, builtin: BuiltinValueKind)

  /** The begin_access that an end_access closes; only its enforcement
      matters to the cost model. */
  datatype BeginAccessRef = BeginAccessRef(enforcement: AccessEnforcement)

  /** The value kinds of the IR: every instruction kind plus the three
      non-instruction values (block arguments and undef). */
  datatype InstKind =
    // literals, debug and lifetime markers, global and function references
    | IntegerLiteralInst | FloatLiteralInst | DebugValueInst | DebugValueAddrInst
    | StringLiteralInst | ConstStringLiteralInst | FixLifetimeInst | EndBorrowInst
    | EndBorrowArgumentInst | BeginBorrowInst | MarkDependenceInst | FunctionRefInst
    | AllocGlobalInst | GlobalAddrInst | EndLifetimeInst | UncheckedOwnershipConversionInst
    // typed address projections
    | TupleElementAddrInst | StructElementAddrInst | ProjectBlockStorageInst
    // aggregates
    | TupleInst | StructInst | StructExtractInst | TupleExtractInst
    // unchecked casts
    | AddressToPointerInst | PointerToAddressInst | UncheckedRefCastInst
    | UncheckedRefCastAddrInst | UncheckedAddrCastInst | UncheckedTrivialBitCastInst
    | UncheckedBitwiseCastInst | RawPointerToRefInst | RefToRawPointerInst | UpcastInst
    | ThinToThickFunctionInst | ThinFunctionToPointerInst | PointerToThinFunctionInst
    | ConvertFunctionInst | BridgeObjectToWordInst
    // access markers
    | BeginAccessInst(enforcement: AccessEnforcement)
    | EndAccessInst(beginAccess: BeginAccessRef)
    | BeginUnpairedAccessInst(enforcement: AccessEnforcement)
    | EndUnpairedAccessInst(enforcement: AccessEnforcement)
    // metatype bridging and bridge-object conversions
    | ThickToObjCMetatypeInst | ObjCToThickMetatypeInst
    | BridgeObjectToRefInst | RefToBridgeObjectInst
    | MetatypeInst(representation: MetatypeRepresentation)
    | ObjCProtocolInst | ObjCExistentialMetatypeToObjectInst | ObjCMetatypeToObjectInst
    // free terminators
    | UnreachableInst | ReturnInst | ThrowInst
    // calls, allocation, memory, reference counting, dispatch, enums, switches
    | ApplyInst | TryApplyInst | AllocBoxInst | AllocExistentialBoxInst | AllocRefInst
    | AllocRefDynamicInst | AllocStackInst | AllocValueBufferInst | BindMemoryInst
    | ValueMetatypeInst | WitnessMethodInst | AssignInst | BranchInst
    | CheckedCastBranchInst | CheckedCastValueBranchInst | CheckedCastAddrBranchInst
    | ClassMethodInst | CondBranchInst | CondFailInst | CopyBlockInst | CopyAddrInst
    | RetainValueInst | RetainValueAddrInst | UnmanagedRetainValueInst | CopyValueInst
    | CopyUnownedValueInst | DeallocBoxInst | DeallocExistentialBoxInst | DeallocRefInst
    | DeallocPartialRefInst | DeallocStackInst | DeallocValueBufferInst
    | DeinitExistentialAddrInst | DeinitExistentialValueInst | DestroyAddrInst
    | ProjectValueBufferInst | ProjectBoxInst | ProjectExistentialBoxInst
    | ReleaseValueInst | ReleaseValueAddrInst | UnmanagedReleaseValueInst
    | DestroyValueInst | AutoreleaseValueInst | UnmanagedAutoreleaseValueInst
    | DynamicMethodBranchInst | DynamicMethodInst | EnumInst | IndexAddrInst
    | TailAddrInst | IndexRawPointerInst | InitEnumDataAddrInst | InitExistentialAddrInst
    | InitExistentialValueInst | InitExistentialMetatypeInst | InitExistentialRefInst
    | InjectEnumAddrInst | IsNonnullInst | LoadInst | LoadBorrowInst | LoadUnownedInst
    | LoadWeakInst | OpenExistentialAddrInst | OpenExistentialBoxInst
    | OpenExistentialBoxValueInst | OpenExistentialMetatypeInst | OpenExistentialRefInst
    | OpenExistentialValueInst | PartialApplyInst | ExistentialMetatypeInst
    | RefElementAddrInst | RefTailAddrInst | RefToUnmanagedInst | RefToUnownedInst
    | StoreInst | StoreBorrowInst | StoreUnownedInst | StoreWeakInst | StrongPinInst
    | StrongReleaseInst | SetDeallocatingInst | StrongRetainInst | StrongRetainUnownedInst
    | StrongUnpinInst | SuperMethodInst | SwitchEnumAddrInst | SwitchEnumInst
    | SwitchValueInst | UncheckedEnumDataInst | UncheckedTakeEnumDataAddrInst
    | UnconditionalCheckedCastInst | UnconditionalCheckedCastAddrInst
    | UnconditionalCheckedCastValueInst | UnmanagedToRefInst | UnownedReleaseInst
    | UnownedRetainInst | IsUniqueInst | IsUniqueOrPinnedInst | UnownedToRefInst
    | InitBlockStorageHeaderInst | SelectEnumAddrInst | SelectEnumInst | SelectValueInst
    | KeyPathInst | GlobalValueInst
    // builtins
    | BuiltinInst(info: BuiltinInfo)
    // values that are not instructions
    | SILPHIArgument | SILFunctionArgument | SILUndef
    // instructions that do not occur in canonical SIL
    | MarkFunctionEscapeInst | MarkUninitializedInst | MarkUninitializedBehaviorInst
    // instructions that do not occur inside a function
    | ObjectInst

  // ---------------------------------------------------------------------------
  // The cost policy, stated class by class.
  // ---------------------------------------------------------------------------

  /** The classes of value kinds the cost policy speaks about. */
  datatype KindClass =
    | Literal // integer, float and string literals
    | DebugMarker // debug_value and debug_value_addr
    | LifetimeMarker // fix-lifetime, borrow scopes, end-lifetime, mark-dependence and ownership conversion
    | GlobalOrFunctionReference // function and global address materialization
    | TypedAddressProjection // tuple and struct field addresses, block storage
    | Aggregate // tuple and struct construction and extraction
    | UncheckedCast // all unchecked cast families
    | FreeObjCReference // protocol descriptors and metatype-to-object conversions
    | FreeTerminator // return, throw and unreachable
    | AccessMarker // begin/end access, paired and unpaired
    | Metatype // metatype materialization
    | Builtin // builtin calls
    | BridgingConversion // metatype bridging and bridge-object conversions
    | CallOrAllocation // calls, allocation and deallocation
    | MemoryAccess // loads, stores, copies and address arithmetic
    | ReferenceCounting // retain/release families and reference conversions
    | DynamicDispatch // method lookup and dynamic metatypes
    | ExistentialOrEnumOperation // existential and enum construction and projection
    | ControlFlowOrCheck // branches, switches and checked casts
    | NonInstructionValue // block arguments and undef
    | NonCanonical // instructions that canonical SIL does not contain
    | NotInFunction // instructions that cannot occur inside a function

  /** The class of each value kind. */
  function ClassOf(k: InstKind): KindClass {
    match k
    case IntegerLiteralInst | FloatLiteralInst | StringLiteralInst | ConstStringLiteralInst
      => Literal
    case DebugValueInst | DebugValueAddrInst
      => DebugMarker
    case FixLifetimeInst | EndBorrowInst | EndBorrowArgumentInst | BeginBorrowInst
      | MarkDependenceInst | EndLifetimeInst | UncheckedOwnershipConversionInst
      => LifetimeMarker
    case FunctionRefInst | AllocGlobalInst | GlobalAddrInst
      => GlobalOrFunctionReference
    case TupleElementAddrInst | StructElementAddrInst | ProjectBlockStorageInst
      => TypedAddressProjection
    case TupleInst | StructInst | StructExtractInst | TupleExtractInst
      => Aggregate
    case AddressToPointerInst | PointerToAddressInst | UncheckedRefCastInst
      | UncheckedRefCastAddrInst | UncheckedAddrCastInst | UncheckedTrivialBitCastInst
      | UncheckedBitwiseCastInst | RawPointerToRefInst | RefToRawPointerInst | UpcastInst
      | ThinToThickFunctionInst | ThinFunctionToPointerInst | PointerToThinFunctionInst
      | ConvertFunctionInst | BridgeObjectToWordInst
      => UncheckedCast
    case ObjCProtocolInst | ObjCExistentialMetatypeToObjectInst | ObjCMetatypeToObjectInst
      => FreeObjCReference
    case UnreachableInst | ReturnInst | ThrowInst
      => FreeTerminator
    case BeginAccessInst(_) | EndAccessInst(_) | BeginUnpairedAccessInst(_)
      | EndUnpairedAccessInst(_)
      => AccessMarker
    case MetatypeInst(_)
      => Metatype
    case BuiltinInst(_)
      => Builtin
    case ThickToObjCMetatypeInst | ObjCToThickMetatypeInst | BridgeObjectToRefInst
      | RefToBridgeObjectInst
      => BridgingConversion
    case ApplyInst | TryApplyInst | PartialApplyInst | AllocBoxInst | AllocExistentialBoxInst
      | AllocRefInst | AllocRefDynamicInst | AllocStackInst | AllocValueBufferInst
      | DeallocBoxInst | DeallocExistentialBoxInst | DeallocRefInst | DeallocPartialRefInst
      | DeallocStackInst | DeallocValueBufferInst | SetDeallocatingInst
      | InitBlockStorageHeaderInst | KeyPathInst | GlobalValueInst
      => CallOrAllocation
    case BindMemoryInst | AssignInst | CopyAddrInst | CopyBlockInst | DestroyAddrInst
      | IndexAddrInst | TailAddrInst | IndexRawPointerInst | LoadInst | LoadBorrowInst
      | LoadUnownedInst | LoadWeakInst | StoreInst | StoreBorrowInst | StoreUnownedInst
      | StoreWeakInst | RefElementAddrInst | RefTailAddrInst | ProjectValueBufferInst
      | ProjectBoxInst | ProjectExistentialBoxInst
      => MemoryAccess
    case RetainValueInst | RetainValueAddrInst | UnmanagedRetainValueInst | CopyValueInst
      | CopyUnownedValueInst | ReleaseValueInst | ReleaseValueAddrInst
      | UnmanagedReleaseValueInst | DestroyValueInst | AutoreleaseValueInst
      | UnmanagedAutoreleaseValueInst | StrongPinInst | StrongUnpinInst | StrongReleaseInst
      | StrongRetainInst | StrongRetainUnownedInst | UnownedReleaseInst | UnownedRetainInst
      | IsUniqueInst | IsUniqueOrPinnedInst | RefToUnmanagedInst | UnmanagedToRefInst
      | RefToUnownedInst | UnownedToRefInst
      => ReferenceCounting
    case WitnessMethodInst | ClassMethodInst | SuperMethodInst | DynamicMethodInst
      | DynamicMethodBranchInst | ValueMetatypeInst | ExistentialMetatypeInst
      => DynamicDispatch
    case DeinitExistentialAddrInst | DeinitExistentialValueInst | EnumInst
      | InitEnumDataAddrInst | InitExistentialAddrInst | InitExistentialValueInst
      | InitExistentialMetatypeInst | InitExistentialRefInst | InjectEnumAddrInst
      | OpenExistentialAddrInst | OpenExistentialBoxInst | OpenExistentialBoxValueInst
      | OpenExistentialMetatypeInst | OpenExistentialRefInst | OpenExistentialValueInst
      | UncheckedEnumDataInst | UncheckedTakeEnumDataAddrInst | SelectEnumAddrInst
      | SelectEnumInst | SelectValueInst
      => ExistentialOrEnumOperation
    case BranchInst | CondBranchInst | CondFailInst | CheckedCastBranchInst
      | CheckedCastValueBranchInst | CheckedCastAddrBranchInst | SwitchEnumAddrInst
      | SwitchEnumInst | SwitchValueInst | UnconditionalCheckedCastInst
      | UnconditionalCheckedCastAddrInst | UnconditionalCheckedCastValueInst
      | IsNonnullInst
      => ControlFlowOrCheck
    case SILPHIArgument | SILFunctionArgument | SILUndef
      => NonInstructionValue
    case MarkFunctionEscapeInst | MarkUninitializedInst | MarkUninitializedBehaviorInst
      => NonCanonical
    case ObjectInst
      => NotInFunction
  }

  predicate IsNonInstructionValue(k: InstKind) {
    k.SILPHIArgument? || k.SILFunctionArgument? || k.SILUndef?
  }

  predicate IsNonCanonical(k: InstKind) {
    k.MarkFunctionEscapeInst? || k.MarkUninitializedInst? || k.MarkUninitializedBehaviorInst?
  }

  predicate IsAccessMarker(k: InstKind) {
    k.BeginAccessInst? || k.EndAccessInst? || k.BeginUnpairedAccessInst? || k.EndUnpairedAccessInst?
  }

  /** The enforcement an access marker is costed by: its own, except that an
      end_access uses the enforcement of the begin_access it closes. */
  function AccessEnforcementOf(k: InstKind): AccessEnforcement
    requires IsAccessMarker(k)
  {
    match k
    case BeginAccessInst(e) => e
    case EndAccessInst(b) => b.enforcement
    case BeginUnpairedAccessInst(e) => e
    case EndUnpairedAccessInst(e) => e
  }

  /** The kinds the cost function is defined on: canonical instructions that
      live inside a function and, for access markers, a known enforcement. */
  predicate CostDefined(k: InstKind) {
    && !IsNonInstructionValue(k)
    && !IsNonCanonical(k)
    && !k.ObjectInst?
    && (IsAccessMarker(k) ==> AccessEnforcementOf(k) != Unknown)
  }

  /** Classes that are free whatever the payload. */
  predicate IsAlwaysFree(k: InstKind) {
    ClassOf(k) in {Literal, DebugMarker, LifetimeMarker, GlobalOrFunctionReference,
                   TypedAddressProjection, Aggregate, UncheckedCast, FreeObjCReference, FreeTerminator}
  }

  /** Classes that are expensive whatever the payload. */
  predicate IsAlwaysExpensive(k: InstKind) {
    ClassOf(k) in {BridgingConversion, CallOrAllocation, MemoryAccess, ReferenceCounting,
                   DynamicDispatch, ExistentialOrEnumOperation, ControlFlowOrCheck}
  }

  /** A builtin is free when it calls the expect intrinsic or is the
      on-fast-path marker. */
  predicate IsFreeBuiltin(info: BuiltinInfo) {
    info.intrinsic == Expect || info.builtin == OnFastPath
  }

  // ---------------------------------------------------------------------------
  // The cost function.
  // ---------------------------------------------------------------------------

  /** Cost of an access marker with the given enforcement; unknown
      enforcement is a fatal error in the source. */
  function EnforcementCost(enforcement: AccessEnforcement): (c: InlineCost)
    requires enforcement != Unknown
    ensures c == Expensive <==> enforcement == Dynamic
    ensures c == Free <==> enforcement == Static || enforcement == Unsafe
  {
    match enforcement
    case Dynamic => Expensive
    case Static => Free
    case Unsafe => Free
  }

  /** Treats every instruction as one machine instruction and classifies it
      as free or expensive. */
  function InstructionInlineCost(k: InstKind): (c: InlineCost)
    requires CostDefined(k)
  {
    match k
    // access markers cost what their enforcement costs
    case BeginAccessInst(e) => EnforcementCost(e)
    case EndAccessInst(b) => EnforcementCost(b.enforcement)
    case BeginUnpairedAccessInst(e) => EnforcementCost(e)
    case EndUnpairedAccessInst(e) => EnforcementCost(e)
    // only instructions are costed; non-canonical and out-of-function
    // instructions are fatal errors in the source
    case SILPHIArgument | SILFunctionArgument | SILUndef => assert false; Expensive
    case MarkFunctionEscapeInst | MarkUninitializedInst | MarkUninitializedBehaviorInst =>
      assert false; Expensive
    case ObjectInst => assert false; Expensive
    case IntegerLiteralInst | FloatLiteralInst | DebugValueInst | DebugValueAddrInst
      | StringLiteralInst | ConstStringLiteralInst | FixLifetimeInst | EndBorrowInst
      | EndBorrowArgumentInst | BeginBorrowInst | MarkDependenceInst | FunctionRefInst
      | AllocGlobalInst | GlobalAddrInst | EndLifetimeInst | UncheckedOwnershipConversionInst
      => Free
    // Address projections only compute an offset.
    case TupleElementAddrInst | StructElementAddrInst | ProjectBlockStorageInst => Free
    // Building and projecting tuples and structs costs nothing once lowered.
    case TupleInst | StructInst | StructExtractInst | TupleExtractInst => Free
    // Casts that only reinterpret bits.
    case AddressToPointerInst | PointerToAddressInst | UncheckedRefCastInst
      | UncheckedRefCastAddrInst | UncheckedAddrCastInst | UncheckedTrivialBitCastInst
      | UncheckedBitwiseCastInst | RawPointerToRefInst | RefToRawPointerInst | UpcastInst
      | ThinToThickFunctionInst | ThinFunctionToPointerInst | PointerToThinFunctionInst
      | ConvertFunctionInst | BridgeObjectToWordInst
      => Free
    case ThickToObjCMetatypeInst | ObjCToThickMetatypeInst => Expensive
    case BridgeObjectToRefInst | RefToBridgeObjectInst => Expensive
    case MetatypeInst(repr) => if repr == Thin then Free else Expensive
    case ObjCProtocolInst => Free
    case ObjCExistentialMetatypeToObjectInst | ObjCMetatypeToObjectInst => Free
    case UnreachableInst | ReturnInst | ThrowInst => Free
    case ApplyInst | TryApplyInst | AllocBoxInst | AllocExistentialBoxInst | AllocRefInst
      | AllocRefDynamicInst | AllocStackInst | AllocValueBufferInst | BindMemoryInst
      | ValueMetatypeInst | WitnessMethodInst | AssignInst | BranchInst
      | CheckedCastBranchInst | CheckedCastValueBranchInst | CheckedCastAddrBranchInst
      | ClassMethodInst | CondBranchInst | CondFailInst | CopyBlockInst | CopyAddrInst
      | RetainValueInst | RetainValueAddrInst | UnmanagedRetainValueInst | CopyValueInst
      | CopyUnownedValueInst | DeallocBoxInst | DeallocExistentialBoxInst | DeallocRefInst
      | DeallocPartialRefInst | DeallocStackInst | DeallocValueBufferInst
      | DeinitExistentialAddrInst | DeinitExistentialValueInst | DestroyAddrInst
      | ProjectValueBufferInst | ProjectBoxInst | ProjectExistentialBoxInst
      | ReleaseValueInst | ReleaseValueAddrInst | UnmanagedReleaseValueInst
      | DestroyValueInst | AutoreleaseValueInst | UnmanagedAutoreleaseValueInst
      | DynamicMethodBranchInst | DynamicMethodInst | EnumInst | IndexAddrInst
      | TailAddrInst | IndexRawPointerInst | InitEnumDataAddrInst | InitExistentialAddrInst
      | InitExistentialValueInst | InitExistentialMetatypeInst | InitExistentialRefInst
      | InjectEnumAddrInst | IsNonnullInst | LoadInst | LoadBorrowInst | LoadUnownedInst
      | LoadWeakInst | OpenExistentialAddrInst | OpenExistentialBoxInst
      | OpenExistentialBoxValueInst | OpenExistentialMetatypeInst | OpenExistentialRefInst
      | OpenExistentialValueInst | PartialApplyInst | ExistentialMetatypeInst
      | RefElementAddrInst | RefTailAddrInst | RefToUnmanagedInst | RefToUnownedInst
      | StoreInst | StoreBorrowInst | StoreUnownedInst | StoreWeakInst | StrongPinInst
      | StrongReleaseInst | SetDeallocatingInst | StrongRetainInst | StrongRetainUnownedInst
      | StrongUnpinInst | SuperMethodInst | SwitchEnumAddrInst | SwitchEnumInst
      | SwitchValueInst | UncheckedEnumDataInst | UncheckedTakeEnumDataAddrInst
      | UnconditionalCheckedCastInst | UnconditionalCheckedCastAddrInst
      | UnconditionalCheckedCastValueInst | UnmanagedToRefInst | UnownedReleaseInst
      | UnownedRetainInst | IsUniqueInst | IsUniqueOrPinnedInst | UnownedToRefInst
      | InitBlockStorageHeaderInst | SelectEnumAddrInst | SelectEnumInst | SelectValueInst
      | KeyPathInst | GlobalValueInst
      => Expensive
    case BuiltinInst(info) =>
      // expect intrinsics and the fast-path marker are free
      if info.intrinsic == Expect then Free
      else if info.builtin == OnFastPath then Free
      else Expensive
  }

  // ---------------------------------------------------------------------------
  // The cost function against the policy.
  // ---------------------------------------------------------------------------

  /** The payload-dependent classes are exactly the access markers,
      metatypes and builtins. */
  lemma PayloadClasses(k: InstKind)
    ensures ClassOf(k) == AccessMarker <==> IsAccessMarker(k)
    ensures ClassOf(k) == Metatype <==> k.MetatypeInst?
    ensures ClassOf(k) == Builtin <==> k.BuiltinInst?
  {
    AccessMarkerClass(k);
    MetatypeClass(k);
    BuiltinClass(k);
  }

  lemma AccessMarkerClass(k: InstKind)
    ensures ClassOf(k) == AccessMarker ==> IsAccessMarker(k)
  {
  }

  lemma MetatypeClass(k: InstKind)
    ensures ClassOf(k) == Metatype ==> k.MetatypeInst?
  {
  }

  lemma BuiltinClass(k: InstKind)
    ensures ClassOf(k) == Builtin ==> k.BuiltinInst?
  {
  }

  /** Every kind the cost function accepts falls in exactly one of the
      policy's classes: always free, always expensive, or decided by its
      payload (access enforcement, metatype representation, builtin identity). */
  lemma PolicyClassesPartitionKinds(k: InstKind)
    requires CostDefined(k)
    ensures IsAlwaysFree(k) || IsAlwaysExpensive(k) || ClassOf(k) in {AccessMarker, Metatype, Builtin}
    ensures !(IsAlwaysFree(k) && IsAlwaysExpensive(k))
  {
  }

  /** Literals, debug and lifetime markers, function and global references,
      typed address projections, aggregates, unchecked casts, protocol and
      metatype-to-object references, and return/throw/unreachable are free. */
  lemma AlwaysFreeKindsAreFree(k: InstKind)
    requires CostDefined(k) && IsAlwaysFree(k)
    ensures InstructionInlineCost(k) == Free
  {
    if ClassOf(k) == Literal {
    } else if ClassOf(k) == DebugMarker {
    } else if ClassOf(k) == LifetimeMarker {
    } else if ClassOf(k) == GlobalOrFunctionReference {
    } else if ClassOf(k) == TypedAddressProjection {
    } else if ClassOf(k) == Aggregate {
    } else if ClassOf(k) == UncheckedCast {
    } else if ClassOf(k) == FreeObjCReference {
    } else {
      assert ClassOf(k) == FreeTerminator;
    }
  }

  /** Allocation, calls, memory access, reference counting, dynamic dispatch,
      existential and enum operations, branches, switches, checked casts and
      bridging conversions are expensive. */
  lemma AlwaysExpensiveKindsAreExpensive(k: InstKind)
    requires CostDefined(k) && IsAlwaysExpensive(k)
    ensures InstructionInlineCost(k) == Expensive
  {
    if ClassOf(k) == BridgingConversion {
    } else if ClassOf(k) == CallOrAllocation {
    } else if ClassOf(k) == MemoryAccess {
    } else if ClassOf(k) == ReferenceCounting {
    } else if ClassOf(k) == DynamicDispatch {
    } else if ClassOf(k) == ExistentialOrEnumOperation {
    } else {
      assert ClassOf(k) == ControlFlowOrCheck;
    }
  }

  /** Access markers, paired or unpaired, cost what their enforcement costs:
      expensive exactly when dynamically enforced; an end_access uses the
      enforcement of its begin_access. */
  lemma AccessMarkerCost(k: InstKind)
    requires CostDefined(k) && IsAccessMarker(k)
    ensures InstructionInlineCost(k) == EnforcementCost(AccessEnforcementOf(k))
    ensures InstructionInlineCost(k) == Expensive <==> AccessEnforcementOf(k) == Dynamic
    ensures k.EndAccessInst? ==> InstructionInlineCost(k) == InstructionInlineCost(BeginAccessInst(k.beginAccess.enforcement))
  {
  }

  /** A metatype is free exactly when it is thin. */
  lemma MetatypeCost(repr: MetatypeRepresentation)
    ensures InstructionInlineCost(MetatypeInst(repr)) == Free <==> repr == Thin
  {
  }

  /** A builtin is free exactly when it is the expect intrinsic or the
      on-fast-path marker. */
  lemma BuiltinCost(info: BuiltinInfo)
    ensures InstructionInlineCost(BuiltinInst(info)) == Free <==> IsFreeBuiltin(info)
  {
  }

  /** The cost function agrees with the policy read as a reference
      definition: free exactly when the kind is always free, or it is an
      access marker that is not dynamically enforced, a thin metatype, or a
      free builtin. */
  lemma CostMatchesPolicy(k: InstKind)
    requires CostDefined(k)
    ensures InstructionInlineCost(k) == Free <==>
              || IsAlwaysFree(k)
              || (IsAccessMarker(k) && AccessEnforcementOf(k) != Dynamic)
              || (k.MetatypeInst? && k.representation == Thin)
              || (k.BuiltinInst? && IsFreeBuiltin(k.info))
  {
    PayloadClasses(k);
    PolicyClassesPartitionKinds(k);
    if IsAlwaysFree(k) {
      AlwaysFreeKindsAreFree(k);
    } else if IsAlwaysExpensive(k) {
      AlwaysExpensiveKindsAreExpensive(k);
    } else if IsAccessMarker(k) {
      AccessMarkerCost(k);
    } else if k.MetatypeInst? {
      MetatypeCost(k.representation);
    } else {
      BuiltinCost(k.info);
    }
  }
}

=== FILE: debug_scopes.dfy ===
/** Debug scopes and the inlined-scope stitcher.

    Scopes live in a module-wide arena, modelled as a sequence indexed by
    ScopeId; a new scope is appended at the end. A scope's parent scope and
    its inlined-call-site scope always existed before it, so both point to an
    earlier index: that is what makes the two spines acyclic. */
module DebugScopes {
  import opened Wrappers
  import opened Sil

  /** A scope's parent is either an enclosing scope or, at the top, the
      function the scope belongs to. */
  datatype ScopeParent = ParentFunction(fn: FuncId) | ParentScope(scope: ScopeId)

  datatype Scope = Scope(loc: Loc, parent: ScopeParent, inlinedCallSite: Option<ScopeId>)

  /** Both spines of a scope point below `n`. */
  predicate PointsBelow(s: Scope, n: nat) {
    && (s.inlinedCallSite.Some? ==> s.inlinedCallSite.value < n)
    && (s.parent.ParentScope? ==> s.parent.scope < n)
  }

  predicate WellFormedArena(arena: seq<Scope>) {
    forall i :: 0 <= i < |arena| ==> PointsBelow(arena[i], i)
  }

  /** The function a scope ultimately belongs to: an inlined scope belongs to
      the function it was inlined into, found through its inlined-call-site
      scope; otherwise the parent spine is followed up to a function. */
  function ParentFunctionOf(arena: seq<Scope>, s: ScopeId): FuncId
    requires WellFormedArena(arena) && s < |arena|
    decreases s
  {
    match arena[s].inlinedCallSite
    case Some(ics) => ParentFunctionOf(arena, ics)
    case None =>
      match arena[s].parent
      case ParentScope(p) => ParentFunctionOf(arena, p)
      case ParentFunction(f) => f
  }

  /** Following the inlined-call-site spine from `s` passes through `target`. */
  predicate Reaches(arena: seq<Scope>, s: ScopeId, target: ScopeId)
    requires WellFormedArena(arena) && s < |arena|
    decreases s
  {
    || s == target
    || (arena[s].inlinedCallSite.Some? && Reaches(arena, arena[s].inlinedCallSite.value, target))
  }

  /** `r` is an inlined image of the callee scope `callee`: it keeps the
      callee scope's location and parent, and its inlined-call-site scope is
      the image of the callee scope's inlined-call-site scope, where the image
      of "none" is the call-site scope. */
  predicate StitchedFrom(arena: seq<Scope>, callSite: ScopeId, callee: Option<ScopeId>, r: ScopeId)
    requires WellFormedArena(arena) && r < |arena|
    requires callee.Some? ==> callee.value < |arena|
    decreases if callee.Some? then callee.value + 1 else 0
  {
    match callee
    case None => r == callSite
    case Some(s) =>
      && arena[r].loc == arena[s].loc
      && arena[r].parent == arena[s].parent
      && arena[r].inlinedCallSite.Some?
      && StitchedFrom(arena, callSite, arena[s].inlinedCallSite, arena[r].inlinedCallSite.value)
  }

  // ---------------------------------------------------------------------------
  // Facts about the spines.
  // ---------------------------------------------------------------------------

  /** Appending scopes to the arena does not change what older scopes mean. */
  lemma {:induction false} StitchedFromExtends(a: seq<Scope>, b: seq<Scope>, callSite: ScopeId, callee: Option<ScopeId>, r: ScopeId)
    requires WellFormedArena(a) && WellFormedArena(b) && a <= b
    requires r < |a| && (callee.Some? ==> callee.value < |a|)
    requires StitchedFrom(a, callSite, callee, r)
    ensures StitchedFrom(b, callSite, callee, r)
    decreases if callee.Some? then callee.value + 1 else 0
  {
    match callee
    case None =>
    case Some(s) =>
      assert a[s] == b[s] && a[r] == b[r];
      StitchedFromExtends(a, b, callSite, a[s].inlinedCallSite, a[r].inlinedCallSite.value);
  }

  lemma {:induction false} ReachesExtends(a: seq<Scope>, b: seq<Scope>, s: ScopeId, target: ScopeId)
    requires WellFormedArena(a) && WellFormedArena(b) && a <= b && s < |a|
    requires Reaches(a, s, target)
    ensures Reaches(b, s, target)
    decreases s
  {
    assert a[s] == b[s];
    if s != target {
      ReachesExtends(a, b, a[s].inlinedCallSite.value, target);
    }
  }

  lemma {:induction false} ParentFunctionExtends(a: seq<Scope>, b: seq<Scope>, s: ScopeId)
    requires WellFormedArena(a) && WellFormedArena(b) && a <= b && s < |a|
    ensures ParentFunctionOf(b, s) == ParentFunctionOf(a, s)
    decreases s
  {
    assert a[s] == b[s];
    match a[s].inlinedCallSite
    case Some(ics) => ParentFunctionExtends(a, b, ics);
    case None =>
      match a[s].parent
      case ParentScope(p) => ParentFunctionExtends(a, b, p);
      case ParentFunction(f) =>
  }

  /** Following the inlined-call-site spine from any stitched scope reaches
      the call-site scope. */
  lemma {:induction false} StitchedReachesCallSite(arena: seq<Scope>, callSite: ScopeId, callee: Option<ScopeId>, r: ScopeId)
    requires WellFormedArena(arena) && r < |arena| && (callee.Some? ==> callee.value < |arena|)
    requires StitchedFrom(arena, callSite, callee, r)
    ensures Reaches(arena, r, callSite)
    decreases if callee.Some? then callee.value + 1 else 0
  {
    match callee
    case None =>
    case Some(s) =>
      StitchedReachesCallSite(arena, callSite, arena[s].inlinedCallSite, arena[r].inlinedCallSite.value);
  }

  /** A stitched scope belongs to the same function as the call-site scope,
      whatever function the callee scope belonged to. */
  lemma {:induction false} StitchedParentFunction(arena: seq<Scope>, callSite: ScopeId, callee: Option<ScopeId>, r: ScopeId)
    requires WellFormedArena(arena) && r < |arena| && callSite < |arena|
    requires callee.Some? ==> callee.value < |arena|
    requires StitchedFrom(arena, callSite, callee, r)
    ensures ParentFunctionOf(arena, r) == ParentFunctionOf(arena, callSite)
    decreases if callee.Some? then callee.value + 1 else 0
  {
    match callee
    case None =>
    case Some(s) =>
      StitchedParentFunction(arena, callSite, arena[s].inlinedCallSite, arena[r].inlinedCallSite.value);
  }

  /** Any scope whose inlined-call-site spine reaches the call-site scope
      belongs to the call-site scope's function. */
  lemma {:induction false} ReachingScopeParentFunction(arena: seq<Scope>, s: ScopeId, callSite: ScopeId)
    requires WellFormedArena(arena) && s < |arena| && callSite < |arena|
    requires Reaches(arena, s, callSite)
    ensures ParentFunctionOf(arena, s) == ParentFunctionOf(arena, callSite)
    decreases s
  {
    if s != callSite {
      ReachingScopeParentFunction(arena, arena[s].inlinedCallSite.value, callSite);
    }
  }

  // ---------------------------------------------------------------------------
  // The stitcher.
  // ---------------------------------------------------------------------------

  /** The arena together with the per-step cache from callee scopes to the
      scopes stitched for them. */
  datatype InlineScopes = InlineScopes(arena: seq<Scope>, cache: map<ScopeId, ScopeId>)

  /** Every cached entry is the stitched image of its key. */
  predicate CacheConsistent(st: InlineScopes, callSite: ScopeId) {
    && WellFormedArena(st.arena)
    && callSite < |st.arena|
    && forall k :: k in st.cache ==>
         && k < |st.arena|
         && st.cache[k] < |st.arena|
         && StitchedFrom(st.arena, callSite, Some(k), st.cache[k])
  }

  /** The state grows: scopes are only appended and cache entries are only
      added. */
  predicate Grows(st: InlineScopes, st': InlineScopes) {
    && st.arena <= st'.arena
    && forall k :: k in st.cache ==> k in st'.cache && st'.cache[k] == st.cache[k]
  }

  /** Appends the inlined image of the callee scope `s`, whose own
      inlined-call-site scope has already been stitched to `inlinedAt`, and
      caches it. */
  function AppendInlineScope(st: InlineScopes, callSite: ScopeId, s: ScopeId, inlinedAt: ScopeId)
    : (res: (ScopeId, InlineScopes))
    requires CacheConsistent(st, callSite) && s < |st.arena| && inlinedAt < |st.arena|
    requires StitchedFrom(st.arena, callSite, st.arena[s].inlinedCallSite, inlinedAt)
    ensures res.0 == |st.arena| && |res.1.arena| == |st.arena| + 1 && st.arena <= res.1.arena
    ensures res.1.cache == st.cache[s := res.0]
    ensures CacheConsistent(res.1, callSite)
    ensures StitchedFrom(res.1.arena, callSite, Some(s), res.0)
  {
    var callee := st.arena[s];
    var id := |st.arena|;
    var arena2 := st.arena + [Scope(callee.loc, callee.parent, Some(inlinedAt))];
    var st2 := InlineScopes(arena2, st.cache[s := id]);
    assert WellFormedArena(arena2) by {
      assert PointsBelow(arena2[id], id);
    }
    assert arena2[s] == callee;
    StitchedFromExtends(st.arena, arena2, callSite, callee.inlinedCallSite, inlinedAt);
    assert StitchedFrom(arena2, callSite, Some(s), id);
    assert CacheConsistent(st2, callSite) by {
      forall k | k in st2.cache
        ensures k < |arena2| && st2.cache[k] < |arena2| && StitchedFrom(arena2, callSite, Some(k), st2.cache[k])
      {
        if k != s {
          StitchedFromExtends(st.arena, arena2, callSite, Some(k), st.cache[k]);
        }
      }
    }
    (id, st2)
  }

  /** The scope an instruction with callee scope `calleeScope` gets once
      inlined. A null scope maps to the call-site scope; a cached scope maps to
      its cached image with nothing changed; otherwise a new scope is
      appended that keeps the callee scope's location and parent and whose
      inlined-call-site scope is the image of the callee scope's own. */
  function GetOrCreateInlineScope(st: InlineScopes, callSite: ScopeId, calleeScope: Option<ScopeId>)
    : (res: (ScopeId, InlineScopes))
    requires CacheConsistent(st, callSite)
    requires calleeScope.Some? ==> calleeScope.value < |st.arena|
    decreases if calleeScope.Some? then calleeScope.value + 1 else 0
    ensures CacheConsistent(res.1, callSite) && Grows(st, res.1)
    ensures res.0 < |res.1.arena|
    ensures StitchedFrom(res.1.arena, callSite, calleeScope, res.0)
    ensures calleeScope.None? ==> res == (callSite, st)
    ensures calleeScope.Some? && calleeScope.value in st.cache ==> res == (st.cache[calleeScope.value], st)
    ensures calleeScope.Some? ==> calleeScope.value in res.1.cache && res.1.cache[calleeScope.value] == res.0
    ensures calleeScope.Some? && calleeScope.value !in st.cache ==> |st.arena| <= res.0 == |res.1.arena| - 1
  {
    match calleeScope
    case None => (callSite, st)
    case Some(s) =>
      if s in st.cache then (st.cache[s], st)
      else
        var outer := GetOrCreateInlineScope(st, callSite, st.arena[s].inlinedCallSite);
        assert outer.1.arena[s] == st.arena[s];
        var res := AppendInlineScope(outer.1, callSite, s, outer.0);
        assert Grows(st, res.1) by {
          forall k | k in st.cache ensures k in res.1.cache && res.1.cache[k] == st.cache[k] {
            assert k != s && outer.1.cache[k] == st.cache[k];
          }
        }
        res
  }
}

=== FILE: inliner.dfy ===
/** One step of SIL inlining: the body of a callee function is cloned into
    the caller at a full apply site (an `apply` instruction or a `try_apply`
    terminator), argument values are bound to the callee's entry parameters,
    returns branch to a return-to block, throws are rewritten, and every
    inlined instruction gets the inlined location and an inlined debug scope. */
module Inliner {
  import opened Wrappers
  import opened Sil
  import CostModel
  import opened DebugScopes
  import Cfg

  datatype InlineKind = MandatoryInline | PerformanceInline

  /** An inliner for one callee function, `original`. */
  datatype SILInliner = SILInliner(original: Function, kind: InlineKind)

  /** A full apply site in the caller. An `apply` is the instruction at
      position `index` of block `block`; a `try_apply` is the terminator of
      block `block`, and carries its own debug scope and location. */
  datatype CallSite =
    | ApplySite(fn: FuncId, block: BlockId, index: nat, resultType: TypeId, nonThrowing: bool)
    | TryApplySite(fn: FuncId, block: BlockId, scope: Option<ScopeId>, loc: Loc)

  /** A call site can be inlined unless it lies in the callee itself. */
  predicate CanInlineFunction(inl: SILInliner, ai: CallSite) {
    ai.fn != inl.original.id
  }

  /** Mandatory inlining cannot inline Objective-C methods or C functions. */
  predicate RepresentationAllowed(inl: SILInliner) {
    inl.kind == MandatoryInline ==> inl.original.repr != ObjCMethod && inl.original.repr != CFunctionPointer
  }

  // ---------------------------------------------------------------------------
  // The call site in the caller.
  // ---------------------------------------------------------------------------

  /** The call site names a block of the caller, and the apply instruction or
      try_apply terminator is where the site says. */
  predicate ValidSite(caller: Function, ai: CallSite) {
    && ai.block in Labels(caller.blocks)
    && var cb := caller.blocks[IndexOfLabel(caller.blocks, ai.block).value];
       match ai
       case ApplySite(_, _, k, _, _) => k < |cb.insts| && cb.insts[k].kind == CostModel.ApplyInst
       case TryApplySite(_, _, _, _) => cb.term.TryApply?
  }

  /** The position of the caller block holding the call site. */
  function SiteIndex(caller: Function, ai: CallSite): (ci: nat)
    requires ValidSite(caller, ai)
    ensures ci < |caller.blocks| && caller.blocks[ci].id == ai.block
  {
    IndexOfLabel(caller.blocks, ai.block).value
  }

  function SiteBlock(caller: Function, ai: CallSite): Block
    requires ValidSite(caller, ai)
  {
    caller.blocks[SiteIndex(caller, ai)]
  }

  /** The value the apply instruction defines. */
  function ApplyResult(caller: Function, ai: CallSite): ValueId
    requires ValidSite(caller, ai) && ai.ApplySite?
  {
    SiteBlock(caller, ai).insts[ai.index].result
  }

  function SiteScope(caller: Function, ai: CallSite): Option<ScopeId>
    requires ValidSite(caller, ai)
  {
    match ai
    case ApplySite(_, _, k, _, _) => SiteBlock(caller, ai).insts[k].scope
    case TryApplySite(_, _, s, _) => s
  }

  function SiteLoc(caller: Function, ai: CallSite): Loc
    requires ValidSite(caller, ai)
  {
    match ai
    case ApplySite(_, _, k, _, _) => SiteBlock(caller, ai).insts[k].loc
    case TryApplySite(_, _, _, l) => l
  }

  // ---------------------------------------------------------------------------
  // Location and call-site scope.
  // ---------------------------------------------------------------------------

  /** The location every inlined instruction gets: the call site's location,
      marked as inlined or as mandatory-inlined. */
  function InlineLocation(kind: InlineKind, siteLoc: Loc): (l: Loc)
    ensures !l.SourceLoc? && l.callSite == siteLoc
    ensures l.MandatoryInlinedLoc? <==> kind == MandatoryInline
  {
    match kind
    case PerformanceInline => InlinedLoc(siteLoc)
    case MandatoryInline => MandatoryInlinedLoc(siteLoc)
  }

  /** The apply's scope, or the caller function's scope when the apply has
      none. */
  function ApplyScope(caller: Function, ai: CallSite): ScopeId
    requires ValidSite(caller, ai)
  {
    SiteScope(caller, ai).GetOr(caller.scope)
  }

  /** The scope the inlined body hangs from. Mandatory inlining reuses the
      apply's scope; performance inlining appends a new scope at the apply's
      location whose parent is the apply's scope and which is inlined where
      the apply's scope is. Either way the scope belongs to the same function
      as the apply's scope. */
  function CallSiteScope(kind: InlineKind, arena: seq<Scope>, aiScope: ScopeId, siteLoc: Loc)
    : (res: (ScopeId, seq<Scope>))
    requires WellFormedArena(arena) && aiScope < |arena|
    ensures WellFormedArena(res.1) && arena <= res.1 && res.0 < |res.1|
    ensures ParentFunctionOf(res.1, res.0) == ParentFunctionOf(arena, aiScope)
    ensures kind == MandatoryInline ==> res == (aiScope, arena)
    ensures kind == PerformanceInline ==>
              && |res.1| == |arena| + 1 && res.0 == |arena|
              && res.1[res.0].loc == siteLoc
              && res.1[res.0].parent == ParentScope(aiScope)
              && res.1[res.0].inlinedCallSite == arena[aiScope].inlinedCallSite
  {
    match kind
    case MandatoryInline => (aiScope, arena)
    case PerformanceInline =>
      var s := Scope(siteLoc, ParentScope(aiScope), arena[aiScope].inlinedCallSite);
      var arena' := arena + [s];
      assert PointsBelow(arena'[|arena|], |arena|);
      ParentFunctionExtends(arena, arena', aiScope);
      assert arena'[aiScope] == arena[aiScope];
      (|arena|, arena')
  }

  // ---------------------------------------------------------------------------
  // The value map and the block map.
  // ---------------------------------------------------------------------------

  /** `i` is the first position of the list holding its key. */
  predicate FirstKey(keys: seq<nat>, i: nat)
    requires i < |keys|
  {
    forall j :: 0 <= j < i ==> keys[j] != keys[i]
  }

  /** Binds each entry parameter to the argument at the same position. An
      insertion never overwrites an existing key, so if a parameter value
      repeats, its first position wins. */
  function SeedValueMap(params: seq<Param>, args: seq<ValueId>): (m: map<ValueId, ValueId>)
    requires |params| == |args|
    ensures m.Keys == set i | 0 <= i < |params| :: params[i].value
    ensures forall i :: 0 <= i < |params| && FirstKey(ParamValues(params), i) ==> m[params[i].value] == args[i]
    ensures forall v :: v in m ==> m[v] in args
  {
    if params == [] then map[]
    else
      var rest := SeedValueMap(params[1..], args[1..]);
      SeedStep(params, args, rest);
      rest[params[0].value := args[0]]
  }

  /** Inserting the first binding over the seeding of the rest seeds all of
      `params`. */
  lemma SeedStep(params: seq<Param>, args: seq<ValueId>, rest: map<ValueId, ValueId>)
    requires |params| == |args| && params != []
    requires rest.Keys == (set i | 0 <= i < |params[1..]| :: params[1..][i].value)
    requires forall i :: 0 <= i < |params[1..]| && FirstKey(ParamValues(params[1..]), i) ==> rest[params[1..][i].value] == args[1..][i]
    requires forall v :: v in rest ==> rest[v] in args[1..]
    ensures var m := rest[params[0].value := args[0]];
      && m.Keys == (set i | 0 <= i < |params| :: params[i].value)
      && (forall i :: 0 <= i < |params| && FirstKey(ParamValues(params), i) ==> m[params[i].value] == args[i])
      && forall v :: v in m ==> m[v] in args
  {
    var m := rest[params[0].value := args[0]];
    var tail := params[1..];
    forall v ensures v in m.Keys <==> v in (set i | 0 <= i < |params| :: params[i].value) {
      if v in rest.Keys {
        var i :| 0 <= i < |tail| && tail[i].value == v;
        assert params[i + 1].value == v;
      }
      if v in (set i | 0 <= i < |params| :: params[i].value) {
        var i :| 0 <= i < |params| && params[i].value == v;
        if i > 0 {
          assert tail[i - 1].value == v;
        }
      }
    }
    forall i | 0 <= i < |params| && FirstKey(ParamValues(params), i) ensures m[params[i].value] == args[i] {
      if i > 0 {
        assert params[i] == tail[i - 1];
        assert ParamValues(params)[0] != ParamValues(params)[i];
        assert FirstKey(ParamValues(tail), i - 1) by {
          forall j | 0 <= j < i - 1 ensures ParamValues(tail)[j] != ParamValues(tail)[i - 1] {
            assert ParamValues(params)[j + 1] != ParamValues(params)[i];
          }
        }
      }
    }
  }

  /** Gives the keys consecutive numbers from `start`, in order; a repeated
      key keeps the number of its first position. */
  function NumberFrom(keys: seq<nat>, start: nat): (m: map<nat, nat>)
    ensures m.Keys == set i | 0 <= i < |keys| :: keys[i]
    ensures forall k :: k in m ==> start <= m[k] < start + |keys|
    decreases |keys|
  {
    if keys == [] then map[]
    else
      var rest := NumberFrom(keys[1..], start + 1);
      assert forall i :: 0 < i < |keys| ==> keys[i] == keys[1..][i - 1];
      rest[keys[0] := start]
  }

  /** The first position of a key decides its number. */
  lemma {:induction false} NumberFromFirst(keys: seq<nat>, start: nat, i: nat)
    requires i < |keys| && FirstKey(keys, i)
    ensures keys[i] in NumberFrom(keys, start) && NumberFrom(keys, start)[keys[i]] == start + i
    decreases |keys|
  {
    if i > 0 {
      assert keys[i] == keys[1..][i - 1];
      assert FirstKey(keys[1..], i - 1) by {
        forall j | 0 <= j < i - 1 ensures keys[1..][j] != keys[1..][i - 1] {
          assert keys[1..][j] == keys[j + 1];
        }
      }
      NumberFromFirst(keys[1..], start + 1, i - 1);
    }
  }

  /** Distinct keys get distinct numbers. */
  lemma {:induction false} NumberFromInjective(keys: seq<nat>, start: nat)
    ensures forall a, b :: a in NumberFrom(keys, start) && b in NumberFrom(keys, start) && a != b ==>
              NumberFrom(keys, start)[a] != NumberFrom(keys, start)[b]
    decreases |keys|
  {
    if keys != [] {
      NumberFromInjective(keys[1..], start + 1);
    }
  }

  /** A value after cloning: its image under the value map, or itself when
      it is defined outside the callee. */
  function Remap(vm: map<ValueId, ValueId>, v: ValueId): ValueId {
    if v in vm then vm[v] else v
  }

  function RemapFn(vm: map<ValueId, ValueId>): ValueId -> ValueId {
    v => Remap(vm, v)
  }

  function RemapBlock(bm: map<BlockId, BlockId>, l: BlockId): BlockId {
    if l in bm then bm[l] else l
  }

  function RemapBlockFn(bm: map<BlockId, BlockId>): BlockId -> BlockId {
    l => RemapBlock(bm, l)
  }

  // ---------------------------------------------------------------------------
  // What gets cloned.
  // ---------------------------------------------------------------------------

  /** Mandatory inlining drops debug_value and debug_value_addr. */
  predicate Dropped(kind: InlineKind, k: CostModel.InstKind) {
    kind == MandatoryInline && (k.DebugValueInst? || k.DebugValueAddrInst?)
  }

  /** The instructions that get a clone, in order: exactly those that are
      not dropped, so performance inlining keeps them all. */
  function Kept(kind: InlineKind, insts: seq<Inst>): (r: seq<Inst>)
    ensures forall j :: 0 <= j < |r| ==> r[j] in insts && !Dropped(kind, r[j].kind)
    ensures forall j :: 0 <= j < |insts| && !Dropped(kind, insts[j].kind) ==> insts[j] in r
    ensures (forall j :: 0 <= j < |insts| ==> !Dropped(kind, insts[j].kind)) ==> r == insts
    ensures kind == PerformanceInline ==> r == insts
  {
    if insts == [] then []
    else if Dropped(kind, insts[0].kind) then Kept(kind, insts[1..])
    else [insts[0]] + Kept(kind, insts[1..])
  }

  /** Filtering goes instruction by instruction: the kept part of a
      concatenation is the concatenation of the kept parts, so the clones
      follow the callee's order. */
  lemma {:induction false} KeptAppend(kind: InlineKind, a: seq<Inst>, b: seq<Inst>)
    ensures Kept(kind, a + b) == Kept(kind, a) + Kept(kind, b)
  {
    if a == [] {
      assert a + b == b;
    } else {
      assert (a + b)[0] == a[0];
      assert (a + b)[1..] == a[1..] + b;
      KeptAppend(kind, a[1..], b);
    }
  }

  /** One instruction is kept alone exactly when it is not dropped. */
  lemma KeptSingle(kind: InlineKind, i: Inst)
    ensures Kept(kind, [i]) == if Dropped(kind, i.kind) then [] else [i]
  {
    assert [i][1..] == [];
  }

  /** Kept instructions, counted by kind: a dropped kind vanishes, every other
      kind keeps its count. */
  lemma {:induction false} KeptKinds(kind: InlineKind, insts: seq<Inst>, k: CostModel.InstKind)
    ensures multiset(KindsOf(Kept(kind, insts)))[k] == if Dropped(kind, k) then 0 else multiset(KindsOf(insts))[k]
  {
    if insts != [] {
      var x := insts[0].kind;
      KeptKinds(kind, insts[1..], k);
      KindsOfCons(insts);
      if Dropped(kind, x) {
        assert Kept(kind, insts) == Kept(kind, insts[1..]);
        DroppedSame(kind, x, k);
      } else {
        KindsOfCons([insts[0]] + Kept(kind, insts[1..]));
        assert ([insts[0]] + Kept(kind, insts[1..]))[1..] == Kept(kind, insts[1..]);
        DroppedSame(kind, x, k);
      }
    }
  }

  lemma KindsOfCons(insts: seq<Inst>)
    requires insts != []
    ensures forall k :: multiset(KindsOf(insts))[k] == (if insts[0].kind == k then 1 else 0) + multiset(KindsOf(insts[1..]))[k]
  {
    assert KindsOf(insts) == [insts[0].kind] + KindsOf(insts[1..]);
  }

  lemma DroppedSame(kind: InlineKind, x: CostModel.InstKind, k: CostModel.InstKind)
    ensures x == k ==> (Dropped(kind, x) <==> Dropped(kind, k))
  {
  }

  /** The blocks of `blocks` whose id is in `r`, in order. */
  function BlocksIn(blocks: seq<Block>, r: set<BlockId>): (res: seq<Block>)
    ensures forall j :: 0 <= j < |res| ==> res[j] in blocks && res[j].id in r
    ensures forall b :: b in blocks && b.id in r ==> b in res
    ensures UniqueLabels(blocks) ==> UniqueLabels(res)
  {
    if blocks == [] then []
    else
      var rest := BlocksIn(blocks[1..], r);
      if blocks[0].id in r then
        assert forall j :: 0 <= j < |rest| ==> rest[j] in blocks[1..];
        [blocks[0]] + rest
      else rest
  }

  /** The callee blocks the cloner creates new blocks for: every block
      reachable from the entry block other than the entry itself, which is
      mapped onto the caller's block. */
  function ClonedSources(callee: Function): (srcs: seq<Block>)
    requires Cfg.WellFormedCfg(callee)
    ensures UniqueLabels(srcs)
    ensures forall j :: 0 <= j < |srcs| ==> srcs[j] in callee.blocks && srcs[j].id != Cfg.Entry(callee)
  {
    var srcs := BlocksIn(callee.blocks[1..], Cfg.ReachableBlocks(callee));
    assert UniqueLabels(callee.blocks[1..]);
    forall j | 0 <= j < |srcs| ensures srcs[j] in callee.blocks && srcs[j].id != Cfg.Entry(callee) {
      assert srcs[j] in callee.blocks[1..];
    }
    srcs
  }

  function LabelsOf(blocks: seq<Block>): (r: seq<BlockId>)
    ensures |r| == |blocks| && forall i :: 0 <= i < |blocks| ==> r[i] == blocks[i].id
  {
    seq(|blocks|, i requires 0 <= i < |blocks| => blocks[i].id)
  }

  function ResultsOf(insts: seq<Inst>): (r: seq<ValueId>)
    ensures |r| == |insts| && forall i :: 0 <= i < |insts| ==> r[i] == insts[i].result
  {
    seq(|insts|, i requires 0 <= i < |insts| => insts[i].result)
  }

  /** The callee values cloning defines anew: results of the kept
      instructions, and parameters of every cloned block. */
  function BlockDefs(kind: InlineKind, blocks: seq<Block>): seq<ValueId> {
    if blocks == [] then []
    else ParamValues(blocks[0].params) + ResultsOf(Kept(kind, blocks[0].insts)) + BlockDefs(kind, blocks[1..])
  }

  // ---------------------------------------------------------------------------
  // Cloning instructions and blocks.
  // ---------------------------------------------------------------------------

  /** What every clone needs: the kind of inlining, both maps, the inlined
      location and the call-site scope. */
  datatype CloneContext = CloneContext(
    kind: InlineKind,
    valueMap: map<ValueId, ValueId>,
    blockMap: map<BlockId, BlockId>,
    loc: Loc,
    callSiteScope: ScopeId)

  /** Every scope an instruction of `insts` names is in the arena. */
  predicate ScopesIn(insts: seq<Inst>, n: nat) {
    forall i :: 0 <= i < |insts| && insts[i].scope.Some? ==> insts[i].scope.value < n
  }

  predicate BlockScopesIn(blocks: seq<Block>, n: nat) {
    forall j :: 0 <= j < |blocks| ==> ScopesIn(blocks[j].insts, n)
  }

  /** The scope `s` is what the inlined instruction with callee scope
      `calleeScope` gets: the call-site scope under mandatory inlining, and
      otherwise the stitched image recorded in the cache (the call-site scope
      for a null callee scope). */
  predicate InlinedScope(ctx: CloneContext, st: InlineScopes, calleeScope: Option<ScopeId>, s: Option<ScopeId>) {
    && s.Some?
    && if ctx.kind == MandatoryInline || calleeScope.None? then s.value == ctx.callSiteScope
       else calleeScope.value in st.cache && st.cache[calleeScope.value] == s.value
  }

  /** `c` is a clone of `orig`: same kind, result and operands remapped,
      inlined location and inlined scope. */
  predicate ClonedFrom(ctx: CloneContext, st: InlineScopes, orig: Inst, c: Inst) {
    && c.kind == orig.kind
    && c.result == Remap(ctx.valueMap, orig.result)
    && c.operands == RenameSeq(orig.operands, RemapFn(ctx.valueMap))
    && c.loc == ctx.loc
    && InlinedScope(ctx, st, orig.scope, c.scope)
  }

  lemma ClonedFromGrows(ctx: CloneContext, st: InlineScopes, st': InlineScopes, orig: Inst, c: Inst)
    requires ClonedFrom(ctx, st, orig, c) && Grows(st, st')
    ensures ClonedFrom(ctx, st', orig, c)
  {
  }

  function CloneInst(ctx: CloneContext, st: InlineScopes, i: Inst): (res: (Inst, InlineScopes))
    requires CacheConsistent(st, ctx.callSiteScope)
    requires i.scope.Some? ==> i.scope.value < |st.arena|
    ensures CacheConsistent(res.1, ctx.callSiteScope) && Grows(st, res.1)
    ensures ClonedFrom(ctx, res.1, i, res.0)
  {
    var (s, st') := match ctx.kind
      case MandatoryInline => (ctx.callSiteScope, st)
      case PerformanceInline => GetOrCreateInlineScope(st, ctx.callSiteScope, i.scope);
    (Inst(Remap(ctx.valueMap, i.result), i.kind, RenameSeq(i.operands, RemapFn(ctx.valueMap)), Some(s), ctx.loc), st')
  }

  lemma ScopesInGrow(insts: seq<Inst>, n: nat, n': nat)
    requires ScopesIn(insts, n) && n <= n'
    ensures ScopesIn(insts, n')
  {
  }

  /** Clones the kept instructions in order, threading the scope state. */
  function CloneInsts(ctx: CloneContext, st: InlineScopes, insts: seq<Inst>): (res: (seq<Inst>, InlineScopes))
    requires CacheConsistent(st, ctx.callSiteScope)
    requires ScopesIn(insts, |st.arena|)
    ensures CacheConsistent(res.1, ctx.callSiteScope) && Grows(st, res.1)
    ensures |res.0| == |Kept(ctx.kind, insts)|
    ensures forall j :: 0 <= j < |res.0| ==> ClonedFrom(ctx, res.1, Kept(ctx.kind, insts)[j], res.0[j])
    decreases |insts|
  {
    if insts == [] then ([], st)
    else if Dropped(ctx.kind, insts[0].kind) then CloneInsts(ctx, st, insts[1..])
    else
      var (c, st1) := CloneInst(ctx, st, insts[0]);
      ScopesInGrow(insts[1..], |st.arena|, |st1.arena|);
      var (cs, st2) := CloneInsts(ctx, st1, insts[1..]);
      ClonedFromGrows(ctx, st1, st2, insts[0], c);
      ClonedCons(ctx, st2, insts, c, cs);
      ([c] + cs, st2)
  }

  /** A clone of the first instruction followed by clones of the kept rest
      are clones of all the kept instructions. */
  lemma ClonedCons(ctx: CloneContext, st: InlineScopes, insts: seq<Inst>, c: Inst, cs: seq<Inst>)
    requires insts != [] && !Dropped(ctx.kind, insts[0].kind) && ClonedFrom(ctx, st, insts[0], c)
    requires |cs| == |Kept(ctx.kind, insts[1..])|
    requires forall j :: 0 <= j < |cs| ==> ClonedFrom(ctx, st, Kept(ctx.kind, insts[1..])[j], cs[j])
    ensures |[c] + cs| == |Kept(ctx.kind, insts)|
    ensures forall j :: 0 <= j < |[c] + cs| ==> ClonedFrom(ctx, st, Kept(ctx.kind, insts)[j], ([c] + cs)[j])
  {
    var kept, rest := Kept(ctx.kind, insts), Kept(ctx.kind, insts[1..]);
    assert kept == [insts[0]] + rest;
    forall j | 0 <= j < |[c] + cs| ensures ClonedFrom(ctx, st, kept[j], ([c] + cs)[j]) {
      if j > 0 {
        assert kept[j] == rest[j - 1] && ([c] + cs)[j] == cs[j - 1];
      }
    }
  }

  function CloneParams(vm: map<ValueId, ValueId>, ps: seq<Param>): (r: seq<Param>)
    ensures |r| == |ps|
    ensures forall i :: 0 <= i < |ps| ==> r[i] == ps[i].(value := Remap(vm, ps[i].value))
  {
    seq(|ps|, i requires 0 <= i < |ps| => ps[i].(value := Remap(vm, ps[i].value)))
  }

  /** `c` is the clone of block `b`: mapped id, parameters of the same type
      and ownership bound to their images, cloned kept instructions, and a
      terminator still to be filled in. */
  predicate BlockClonedFrom(ctx: CloneContext, st: InlineScopes, b: Block, c: Block) {
    && c.id == RemapBlock(ctx.blockMap, b.id)
    && c.params == CloneParams(ctx.valueMap, b.params)
    && |c.insts| == |Kept(ctx.kind, b.insts)|
    && (forall j :: 0 <= j < |c.insts| ==> ClonedFrom(ctx, st, Kept(ctx.kind, b.insts)[j], c.insts[j]))
    && c.term == Unreachable
  }

  lemma BlockClonedFromGrows(ctx: CloneContext, st: InlineScopes, st': InlineScopes, b: Block, c: Block)
    requires BlockClonedFrom(ctx, st, b, c) && Grows(st, st')
    ensures BlockClonedFrom(ctx, st', b, c)
  {
    forall j | 0 <= j < |c.insts|
      ensures ClonedFrom(ctx, st', Kept(ctx.kind, b.insts)[j], c.insts[j])
    {
      ClonedFromGrows(ctx, st, st', Kept(ctx.kind, b.insts)[j], c.insts[j]);
    }
  }

  /** Clones the blocks in order, threading the scope state. */
  function CloneBlocks(ctx: CloneContext, st: InlineScopes, blocks: seq<Block>): (res: (seq<Block>, InlineScopes))
    requires CacheConsistent(st, ctx.callSiteScope)
    requires BlockScopesIn(blocks, |st.arena|)
    ensures CacheConsistent(res.1, ctx.callSiteScope) && Grows(st, res.1)
    ensures |res.0| == |blocks|
    ensures forall j :: 0 <= j < |blocks| ==> BlockClonedFrom(ctx, res.1, blocks[j], res.0[j])
    decreases |blocks|
  {
    if blocks == [] then ([], st)
    else
      var b := blocks[0];
      var (insts, st1) := CloneInsts(ctx, st, b.insts);
      var c := Block(RemapBlock(ctx.blockMap, b.id), CloneParams(ctx.valueMap, b.params), insts, Unreachable);
      assert BlockScopesIn(blocks[1..], |st1.arena|) by {
        forall j | 0 <= j < |blocks[1..]| ensures ScopesIn(blocks[1..][j].insts, |st1.arena|) {
          assert blocks[1..][j] == blocks[j + 1];
          ScopesInGrow(blocks[j + 1].insts, |st.arena|, |st1.arena|);
        }
      }
      var (cs, st2) := CloneBlocks(ctx, st1, blocks[1..]);
      assert BlockClonedFrom(ctx, st1, b, c);
      BlockClonedFromGrows(ctx, st1, st2, b, c);
      ([c] + cs, st2)
  }

  // ---------------------------------------------------------------------------
  // Terminators.
  // ---------------------------------------------------------------------------

  /** Where the callee's exits go: a return branches to `returnTo`; a throw
      branches to `errorDest` when inlining into a try_apply, and becomes
      unreachable when inlining into an apply (which cannot throw). */
  datatype ExitPlan = ExitPlan(returnTo: BlockId, errorDest: Option<BlockId>)

  function MapBlocks(ls: seq<BlockId>, bm: map<BlockId, BlockId>): (r: seq<BlockId>)
    ensures |r| == |ls| && forall i :: 0 <= i < |ls| ==> r[i] == RemapBlock(bm, ls[i])
  {
    seq(|ls|, i requires 0 <= i < |ls| => RemapBlock(bm, ls[i]))
  }

  lemma RenameBlocksKeepsUses(t: Terminator, beta: BlockId -> BlockId, v: ValueId)
    ensures t.RenameBlocks(beta).Uses(v) <==> t.Uses(v)
  {
  }

  /** The terminator of a mapped block. A return and a throw are replaced as
      `plan` says; any other terminator is cloned with its destinations and
      operands remapped. The result is never a return or a throw, its
      successors are the images of the original's (or the plan's targets),
      and it reads exactly the images of the values the original read, except
      that an unreachable reads nothing. */
  function RewriteTerminator(ctx: CloneContext, plan: ExitPlan, t: Terminator): (r: Terminator)
    ensures !r.Return? && !r.Throw?
    ensures t.Return? ==> r == Branch(plan.returnTo, [Remap(ctx.valueMap, t.value)])
    ensures t.Throw? && plan.errorDest.Some? ==> r == Branch(plan.errorDest.value, [Remap(ctx.valueMap, t.value)])
    ensures t.Return? ==> r.Successors() == [plan.returnTo]
    ensures t.Throw? ==> r.Successors() == if plan.errorDest.Some? then [plan.errorDest.value] else []
    ensures !t.Return? && !t.Throw? ==> r.Successors() == MapBlocks(t.Successors(), ctx.blockMap)
    ensures t.Throw? && plan.errorDest.None? ==> r == Unreachable
    ensures !(t.Throw? && plan.errorDest.None?) ==>
              forall v :: r.Uses(v) <==> exists u :: t.Uses(u) && Remap(ctx.valueMap, u) == v
  {
    match t
    case Return(v) => Branch(plan.returnTo, [Remap(ctx.valueMap, v)])
    case Throw(v) =>
      (match plan.errorDest
       case None => Unreachable
       case Some(e) => Branch(e, [Remap(ctx.valueMap, v)]))
    case _ =>
      var r := t.RenameBlocks(RemapBlockFn(ctx.blockMap)).RenameValues(RemapFn(ctx.valueMap));
      forall v ensures r.Uses(v) <==> exists u :: t.Uses(u) && Remap(ctx.valueMap, u) == v {
        TerminatorRenameUses(t.RenameBlocks(RemapBlockFn(ctx.blockMap)), RemapFn(ctx.valueMap), v);
        forall u ensures t.RenameBlocks(RemapBlockFn(ctx.blockMap)).Uses(u) <==> t.Uses(u) {
          RenameBlocksKeepsUses(t, RemapBlockFn(ctx.blockMap), u);
        }
      }
      RenameKeepsSuccessors(t.RenameBlocks(RemapBlockFn(ctx.blockMap)), RemapFn(ctx.valueMap));
      r
  }

  /** The rewritten terminators: the entry block's first, then those of the
      cloned blocks in order. */
  function RewrittenTerms(ctx: CloneContext, plan: ExitPlan, entry: Block, srcs: seq<Block>): (ts: seq<Terminator>)
    ensures |ts| == |srcs| + 1
    ensures ts[0] == RewriteTerminator(ctx, plan, entry.term)
    ensures forall j :: 0 <= j < |srcs| ==> ts[j + 1] == RewriteTerminator(ctx, plan, srcs[j].term)
  {
    [RewriteTerminator(ctx, plan, entry.term)]
      + seq(|srcs|, j requires 0 <= j < |srcs| => RewriteTerminator(ctx, plan, srcs[j].term))
  }

  /** Gives the blocks at positions `start` .. `start + |terms|` the new
      terminators, leaving everything else alone. */
  function SetTerms(blocks: seq<Block>, start: nat, terms: seq<Terminator>): (r: seq<Block>)
    requires start + |terms| <= |blocks|
    ensures |r| == |blocks|
    ensures forall i :: 0 <= i < |blocks| && !(start <= i < start + |terms|) ==> r[i] == blocks[i]
    ensures forall j :: 0 <= j < |terms| ==> r[start + j] == blocks[start + j].(term := terms[j])
  {
    seq(|blocks|, i requires 0 <= i < |blocks| =>
      if start <= i < start + |terms| then blocks[i].(term := terms[i - start]) else blocks[i])
  }

  // ---------------------------------------------------------------------------
  // Preparing one inlining step.
  // ---------------------------------------------------------------------------

  /** The part of the preconditions that building the clone context needs:
      a well-formed callee whose entry takes one argument per parameter, a
      valid call site, and a scope arena in which the call site's scope
      belongs to the caller and holds every callee scope. */
  predicate SetupPreconditions(inl: SILInliner, caller: Function, ai: CallSite, args: seq<ValueId>, arena: seq<Scope>) {
    && Cfg.WellFormedCfg(inl.original)
    && |inl.original.blocks[0].params| == |args|
    && ValidSite(caller, ai)
    && WellFormedArena(arena)
    && ApplyScope(caller, ai) < |arena|
    && ParentFunctionOf(arena, ApplyScope(caller, ai)) == caller.id
    && BlockScopesIn(inl.original.blocks, |arena|)
  }

  /** What the source asserts of its caller, and the well-formedness of the
      module the inliner relies on. */
  ghost predicate InlinePreconditions(inl: SILInliner, caller: Function, ai: CallSite, args: seq<ValueId>, arena: seq<Scope>) {
    && CanInlineFunction(inl, ai)
    && ai.fn == caller.id
    && RepresentationAllowed(inl)
    && SetupPreconditions(inl, caller, ai, args, arena)
    && (ai.ApplySite? && !ai.nonThrowing ==>
          forall b :: b in inl.original.blocks && b.id in Cfg.ReachableBlocks(inl.original) ==> !b.term.Throw?)
    && ReadsOwnValues(inl.kind, inl.original)
    && (forall a :: a in args ==> a < BlocksValueBound(caller.blocks))
    && (ai.ApplySite? ==> ApplyResult(caller, ai) !in args)
    && BlocksDefineNoUndef(caller.blocks) && BlocksDefineNoUndef(inl.original.blocks)
    && DefinesOnce(inl.kind, inl.original)
  }

  /** Static single assignment, as far as cloning needs it: no value the
      clones define is also an entry parameter. */
  predicate DefinesOnce(kind: InlineKind, callee: Function)
    requires Cfg.WellFormedCfg(callee)
  {
    var entry := callee.blocks[0];
    forall v :: v in Defs(kind, entry, ClonedSources(callee)) ==> v !in ParamValues(entry.params)
  }

  /** The callee reads only its own values and `undef`: every value that a
      block the cloner visits reads is an entry parameter, a definition that
      gets a clone, or `undef`. Values belong to their function, so a callee
      never names a value of the caller. */
  ghost predicate ReadsOwnValues(kind: InlineKind, callee: Function)
    requires Cfg.WellFormedCfg(callee)
  {
    var entry := callee.blocks[0];
    var srcs := ClonedSources(callee);
    var visited := [entry] + srcs;
    forall j, v :: 0 <= j < |visited| && visited[j].Uses(v) ==>
      v in ParamValues(entry.params) || v in Defs(kind, entry, srcs) || v == Undef
  }

  /** The definitions cloning creates: kept entry instructions, then each
      cloned block's parameters and kept instructions. */
  function Defs(kind: InlineKind, entry: Block, srcs: seq<Block>): seq<ValueId> {
    ResultsOf(Kept(kind, entry.insts)) + BlockDefs(kind, srcs)
  }

  /** Entry parameters are bound to the arguments (these bindings come first,
      so they win); every other definition gets a new number, counting up
      from `first`. */
  function InlineValueMap(kind: InlineKind, entry: Block, srcs: seq<Block>, args: seq<ValueId>, first: nat)
    : (vm: map<ValueId, ValueId>)
    requires |entry.params| == |args|
    ensures forall i :: 0 <= i < |args| && FirstKey(ParamValues(entry.params), i) ==>
              entry.params[i].value in vm && vm[entry.params[i].value] == args[i]
    ensures forall v :: v in vm ==>
              (exists i :: 0 <= i < |args| && entry.params[i].value == v) || first <= vm[v] < first + |Defs(kind, entry, srcs)|
    ensures forall v :: v in vm <==> v in ParamValues(entry.params) || v in Defs(kind, entry, srcs)
    ensures forall v :: v in vm ==> vm[v] in args || first <= vm[v]
  {
    var defs := Defs(kind, entry, srcs);
    var seed := SeedValueMap(entry.params, args);
    forall v | v in ParamValues(entry.params) || v in defs ensures v in NumberFrom(defs, first) || v in seed {
      if v in defs {
        var i :| 0 <= i < |defs| && defs[i] == v;
      } else {
        var i :| 0 <= i < |entry.params| && ParamValues(entry.params)[i] == v;
      }
    }
    NumberFrom(defs, first) + seed
  }

  /** The entry block maps onto the caller's block; every other reachable
      block gets a new id, numbered in order from `first`. */
  function InlineBlockMap(callee: Function, callerBlock: BlockId, first: nat): (bm: map<BlockId, BlockId>)
    requires Cfg.WellFormedCfg(callee)
    ensures bm.Keys == Cfg.ReachableBlocks(callee)
    ensures bm[Cfg.Entry(callee)] == callerBlock
    ensures forall j :: 0 <= j < |ClonedSources(callee)| ==> bm[ClonedSources(callee)[j].id] == first + j
  {
    var srcs := ClonedSources(callee);
    ClonedSourcesAreReachable(callee);
    BlockMapOf(srcs, Cfg.Entry(callee), callerBlock, first);
    NumberFrom(LabelsOf(srcs), first) + map[Cfg.Entry(callee) := callerBlock]
  }

  lemma BlockMapOf(srcs: seq<Block>, entry: BlockId, callerBlock: BlockId, first: nat)
    requires UniqueLabels(srcs) && forall j :: 0 <= j < |srcs| ==> srcs[j].id != entry
    ensures var bm := NumberFrom(LabelsOf(srcs), first) + map[entry := callerBlock];
      && bm.Keys == (set j | 0 <= j < |srcs| :: srcs[j].id) + {entry}
      && bm[entry] == callerBlock
      && forall j :: 0 <= j < |srcs| ==> srcs[j].id in bm && bm[srcs[j].id] == first + j
  {
    var ls := LabelsOf(srcs);
    var numbered := NumberFrom(ls, first);
    assert numbered.Keys == set j | 0 <= j < |srcs| :: srcs[j].id by {
      forall l ensures l in numbered.Keys <==> exists j :: 0 <= j < |srcs| && srcs[j].id == l {
        if l in numbered.Keys {
          var j :| 0 <= j < |ls| && ls[j] == l;
          assert srcs[j].id == l;
        }
        if exists j :: 0 <= j < |srcs| && srcs[j].id == l {
          var j :| 0 <= j < |srcs| && srcs[j].id == l;
          assert ls[j] == l;
        }
      }
    }
    forall j | 0 <= j < |srcs| ensures srcs[j].id in numbered && numbered[srcs[j].id] == first + j {
      assert FirstKey(ls, j);
      NumberFromFirst(ls, first, j);
    }
  }

  /** The cloned blocks together with the entry are exactly the reachable
      blocks. */
  lemma ClonedSourcesAreReachable(callee: Function)
    requires Cfg.WellFormedCfg(callee)
    ensures Cfg.ReachableBlocks(callee) == (set j | 0 <= j < |ClonedSources(callee)| :: ClonedSources(callee)[j].id) + {Cfg.Entry(callee)}
  {
    var r := Cfg.ReachableBlocks(callee);
    var srcs := ClonedSources(callee);
    var tail := callee.blocks[1..];
    var s := (set j | 0 <= j < |srcs| :: srcs[j].id) + {Cfg.Entry(callee)};
    assert srcs == BlocksIn(tail, r);
    forall l | l in s ensures l in r {
      if l != Cfg.Entry(callee) {
        var j :| 0 <= j < |srcs| && srcs[j].id == l;
        assert srcs[j].id in r;
      }
    }
    forall l | l in r && l != Cfg.Entry(callee) ensures l in s {
      assert l in Labels(callee.blocks);
      var i :| 0 <= i < |callee.blocks| && callee.blocks[i].id == l;
      assert i != 0;
      var b := callee.blocks[i];
      assert b == tail[i - 1];
      assert b in tail && b.id in r;
      assert b in srcs;
      var j :| 0 <= j < |srcs| && srcs[j] == b;
    }
    assert r == s;
  }

  /** The state of one inlining step once every instruction is cloned. */
  datatype Plan = Plan(
    ctx: CloneContext,
    scopes: InlineScopes,
    srcs: seq<Block>,
    entryClones: seq<Inst>,
    clonedBlocks: seq<Block>,
    retArg: ValueId,
    returnToId: BlockId)

  /** The clone context of one inlining step and the scope state before any
      instruction is cloned: the call-site scope is in place and the cache is
      empty. */
  function Setup(inl: SILInliner, caller: Function, ai: CallSite, args: seq<ValueId>, arena: seq<Scope>)
    : (res: (CloneContext, InlineScopes))
    requires SetupPreconditions(inl, caller, ai, args, arena)
    ensures var (ctx, st) := res;
      && ctx.kind == inl.kind
      && ctx.loc == InlineLocation(inl.kind, SiteLoc(caller, ai))
      && ctx.valueMap == InlineValueMap(inl.kind, inl.original.blocks[0], ClonedSources(inl.original), args, BlocksValueBound(caller.blocks))
      && ctx.blockMap == InlineBlockMap(inl.original, ai.block, BlocksLabelBound(caller.blocks))
      && CacheConsistent(st, ctx.callSiteScope) && arena <= st.arena
      && ParentFunctionOf(st.arena, ctx.callSiteScope) == caller.id
      && (inl.kind == MandatoryInline ==> ctx.callSiteScope == ApplyScope(caller, ai))
      && BlockScopesIn(inl.original.blocks, |st.arena|)
  {
    var callee := inl.original;
    var siteLoc := SiteLoc(caller, ai);
    var (css, arena1) := CallSiteScope(inl.kind, arena, ApplyScope(caller, ai), siteLoc);
    var vm := InlineValueMap(inl.kind, callee.blocks[0], ClonedSources(callee), args, BlocksValueBound(caller.blocks));
    var bm := InlineBlockMap(callee, ai.block, BlocksLabelBound(caller.blocks));
    assert BlockScopesIn(callee.blocks, |arena1|) by {
      forall j | 0 <= j < |callee.blocks| ensures ScopesIn(callee.blocks[j].insts, |arena1|) {
        ScopesInGrow(callee.blocks[j].insts, |arena|, |arena1|);
      }
    }
    (CloneContext(inl.kind, vm, bm, InlineLocation(inl.kind, siteLoc), css), InlineScopes(arena1, map[]))
  }

  /** Clones the entry block's instructions, then the other reachable
      blocks, threading the scope state. */
  function CloneBody(ctx: CloneContext, st: InlineScopes, entry: Block, srcs: seq<Block>)
    : (res: (seq<Inst>, seq<Block>, InlineScopes))
    requires CacheConsistent(st, ctx.callSiteScope)
    requires ScopesIn(entry.insts, |st.arena|) && BlockScopesIn(srcs, |st.arena|)
    ensures var (entryClones, clonedBlocks, st') := res;
      && CacheConsistent(st', ctx.callSiteScope) && Grows(st, st')
      && |entryClones| == |Kept(ctx.kind, entry.insts)|
      && (forall j :: 0 <= j < |entryClones| ==> ClonedFrom(ctx, st', Kept(ctx.kind, entry.insts)[j], entryClones[j]))
      && |clonedBlocks| == |srcs|
      && (forall j :: 0 <= j < |srcs| ==> BlockClonedFrom(ctx, st', srcs[j], clonedBlocks[j]))
  {
    var (entryClones, st1) := CloneInsts(ctx, st, entry.insts);
    assert BlockScopesIn(srcs, |st1.arena|) by {
      forall j | 0 <= j < |srcs| ensures ScopesIn(srcs[j].insts, |st1.arena|) {
        ScopesInGrow(srcs[j].insts, |st.arena|, |st1.arena|);
      }
    }
    var (clonedBlocks, st2) := CloneBlocks(ctx, st1, srcs);
    forall j | 0 <= j < |entryClones|
      ensures ClonedFrom(ctx, st2, Kept(ctx.kind, entry.insts)[j], entryClones[j])
    {
      ClonedFromGrows(ctx, st1, st2, Kept(ctx.kind, entry.insts)[j], entryClones[j]);
    }
    (entryClones, clonedBlocks, st2)
  }

  lemma SourceScopesIn(callee: Function, n: nat)
    requires Cfg.WellFormedCfg(callee) && BlockScopesIn(callee.blocks, n)
    ensures ScopesIn(callee.blocks[0].insts, n) && BlockScopesIn(ClonedSources(callee), n)
  {
    var srcs := ClonedSources(callee);
    forall j | 0 <= j < |srcs| ensures ScopesIn(srcs[j].insts, n) {
      var i :| 0 <= i < |callee.blocks| && callee.blocks[i] == srcs[j];
    }
  }

  /** `p` holds a clone of each kept entry instruction and of each of `srcs`. */
  predicate PlanClones(p: Plan, kind: InlineKind, entry: Block, srcs: seq<Block>) {
    && p.srcs == srcs
    && |p.entryClones| == |Kept(kind, entry.insts)|
    && (forall j :: 0 <= j < |p.entryClones| ==> ClonedFrom(p.ctx, p.scopes, Kept(kind, entry.insts)[j], p.entryClones[j]))
    && |p.clonedBlocks| == |srcs|
    && (forall j :: 0 <= j < |srcs| ==> BlockClonedFrom(p.ctx, p.scopes, srcs[j], p.clonedBlocks[j]))
  }

  /** Clones the callee's entry instructions and its other reachable blocks
      under `ctx`, and numbers the return-to block and its parameter after
      every new block and value. */
  function ClonePlan(ctx: CloneContext, st0: InlineScopes, callee: Function, valueBound: nat, labelBound: nat)
    : (p: Plan)
    requires Cfg.WellFormedCfg(callee)
    requires CacheConsistent(st0, ctx.callSiteScope) && BlockScopesIn(callee.blocks, |st0.arena|)
    ensures p.ctx == ctx
    ensures CacheConsistent(p.scopes, ctx.callSiteScope) && Grows(st0, p.scopes)
    ensures ParentFunctionOf(p.scopes.arena, ctx.callSiteScope) == ParentFunctionOf(st0.arena, ctx.callSiteScope)
    ensures PlanClones(p, ctx.kind, callee.blocks[0], ClonedSources(callee))
    ensures p.retArg == valueBound + |Defs(ctx.kind, callee.blocks[0], p.srcs)|
    ensures p.returnToId == labelBound + |p.srcs|
  {
    var srcs := ClonedSources(callee);
    SourceScopesIn(callee, |st0.arena|);
    var (entryClones, clonedBlocks, st) := CloneBody(ctx, st0, callee.blocks[0], srcs);
    ParentFunctionExtends(st0.arena, st.arena, ctx.callSiteScope);
    Plan(ctx, st, srcs, entryClones, clonedBlocks,
         valueBound + |Defs(ctx.kind, callee.blocks[0], srcs)|, labelBound + |srcs|)
  }

  /** What the preparation of one inlining step yields: the clone context of
      `Setup`, a grown scope state whose call-site scope still belongs to the
      caller, a clone of every kept entry instruction and every other
      reachable callee block, and the ids left for the return-to block and
      its parameter. */
  predicate Prepared(inl: SILInliner, caller: Function, ai: CallSite, args: seq<ValueId>, arena: seq<Scope>, p: Plan)
    requires SetupPreconditions(inl, caller, ai, args, arena)
  {
    && p.ctx == Setup(inl, caller, ai, args, arena).0
    && CacheConsistent(p.scopes, p.ctx.callSiteScope) && arena <= p.scopes.arena
    && ParentFunctionOf(p.scopes.arena, p.ctx.callSiteScope) == caller.id
    && PlanClones(p, inl.kind, inl.original.blocks[0], ClonedSources(inl.original))
    && p.retArg == BlocksValueBound(caller.blocks) + |Defs(inl.kind, inl.original.blocks[0], p.srcs)|
    && p.returnToId == BlocksLabelBound(caller.blocks) + |p.srcs|
  }

  /** Everything up to the layout: the context, then every clone. */
  function Prepare(inl: SILInliner, caller: Function, ai: CallSite, args: seq<ValueId>, arena: seq<Scope>): (p: Plan)
    requires SetupPreconditions(inl, caller, ai, args, arena)
    ensures Prepared(inl, caller, ai, args, arena, p)
  {
    var setup := Setup(inl, caller, ai, args, arena);
    ClonePlan(setup.0, setup.1, inl.original, BlocksValueBound(caller.blocks), BlocksLabelBound(caller.blocks))
  }

  // ---------------------------------------------------------------------------
  // Laying out the inlined body in the caller.
  // ---------------------------------------------------------------------------

  /** Fast path, for an apply whose callee entry block returns: the entry's
      clones go right before the apply, and every use of the apply's result
      is redirected to the returned value. No block, parameter or terminator
      is added. */
  function LayoutFastPath(caller: Function, ci: nat, k: nat, entryClones: seq<Inst>, result: ValueId, rv: ValueId)
    : (f: Function)
    requires ci < |caller.blocks| && k <= |caller.blocks[ci].insts|
    ensures f.id == caller.id && f.repr == caller.repr && f.scope == caller.scope
    ensures |f.blocks| == |caller.blocks|
    ensures forall i :: 0 <= i < |caller.blocks| && i != ci ==>
              f.blocks[i] == caller.blocks[i].RenameValues(Subst(result, rv))
    ensures var cb := caller.blocks[ci];
            f.blocks[ci] == cb.(insts := cb.insts[..k] + entryClones + cb.insts[k..]).RenameValues(Subst(result, rv))
    ensures result != rv ==> !f.Uses(result)
  {
    var cb := caller.blocks[ci];
    var f1 := caller.(blocks := caller.blocks[ci := cb.(insts := cb.insts[..k] + entryClones + cb.insts[k..])]);
    ReplaceAllUsesWith(f1, result, rv)
  }

  /** An apply whose callee entry does not return: the caller block is split
      at the apply. The first half keeps the instructions before the apply,
      followed by the entry's clones; the cloned blocks come next; then the
      return-to block, which has one owned parameter of the apply's type and
      holds the apply and everything after it, with the caller block's old
      terminator. Uses of the apply's result are redirected to that
      parameter, and then the mapped blocks get their rewritten terminators. */
  function LayoutSplit(caller: Function, ci: nat, k: nat, entryClones: seq<Inst>, clonedBlocks: seq<Block>,
                       result: ValueId, retArg: ValueId, resultType: TypeId, returnToId: BlockId,
                       terms: seq<Terminator>)
    : (f: Function)
    requires ci < |caller.blocks| && k <= |caller.blocks[ci].insts| && |terms| == |clonedBlocks| + 1
    ensures f.id == caller.id && f.repr == caller.repr && f.scope == caller.scope
    ensures HoldsTerms(f.blocks, ci, caller.blocks[ci].id, clonedBlocks, terms)
    ensures SplitLayout(f.blocks, caller.blocks, ci, k, entryClones, clonedBlocks, result, retArg, resultType, returnToId, terms)
  {
    var cb := caller.blocks[ci];
    var pre := cb.(insts := cb.insts[..k] + entryClones);
    var rt := Block(returnToId, [Param(retArg, resultType, Owned)], cb.insts[k..], cb.term);
    var blocks1 := Splice(caller.blocks, ci, pre, clonedBlocks, rt);
    var f2 := ReplaceAllUsesWith(caller.(blocks := blocks1), result, retArg);
    assert forall i :: 0 <= i < |blocks1| ==> f2.blocks[i] == blocks1[i].RenameValues(Subst(result, retArg));
    f2.(blocks := SetTerms(f2.blocks, ci, terms))
  }

  /** The blocks of a split: with every use of the apply's result renamed to
      the return-to block's parameter, the blocks before `ci` and after it are
      the caller's; at `ci` the caller's block keeps its id, parameters and
      the instructions before the apply, followed by the entry's clones, and
      takes the entry's rewritten terminator; then come the cloned blocks with
      their terminators, and the return-to block, which holds the apply,
      everything after it and the old terminator. */
  predicate SplitLayout(laid: seq<Block>, blocks: seq<Block>, ci: nat, k: nat, entryClones: seq<Inst>,
                        clonedBlocks: seq<Block>, result: ValueId, retArg: ValueId, resultType: TypeId,
                        returnToId: BlockId, terms: seq<Terminator>)
    requires ci < |blocks| && k <= |blocks[ci].insts| && |terms| == |clonedBlocks| + 1
  {
    var rho := Subst(result, retArg);
    var cb := blocks[ci];
    && |laid| == |blocks| + |clonedBlocks| + 1
    && (forall i :: 0 <= i < ci ==> laid[i] == blocks[i].RenameValues(rho))
    && (forall i :: ci < i < |blocks| ==> laid[i + |clonedBlocks| + 1] == blocks[i].RenameValues(rho))
    && laid[ci].id == cb.id && laid[ci].params == cb.params
    && laid[ci].insts == RenameInsts(cb.insts[..k] + entryClones, rho)
    && laid[ci].term == terms[0]
    && (forall j :: 0 <= j < |clonedBlocks| ==> laid[ci + 1 + j] == clonedBlocks[j].RenameValues(rho).(term := terms[j + 1]))
    && laid[ci + |clonedBlocks| + 1] == Block(returnToId, [Param(retArg, resultType, Owned)], cb.insts[k..], cb.term).RenameValues(rho)
  }

  /** After a split that put `n` blocks after the caller's block `ci` and the
      return-to block after them: no block other than the `n` reads `result`
      (in the caller's block, no instruction does), and each of the caller's
      other blocks reads `retArg` exactly where it read `result`. */
  predicate ResultRedirected(laid: seq<Block>, blocks: seq<Block>, ci: nat, n: nat, result: ValueId, retArg: ValueId) {
    && ci < |blocks| && |laid| == |blocks| + n + 1
    && (forall i :: 0 <= i < ci ==> !laid[i].Uses(result) && (laid[i].Uses(retArg) <==> blocks[i].Uses(result)))
    && (forall m :: ci + n + 1 < m < |laid| ==>
          !laid[m].Uses(result) && (laid[m].Uses(retArg) <==> blocks[m - n - 1].Uses(result)))
    && (forall j :: 0 <= j < |laid[ci].insts| ==> !laid[ci].insts[j].Uses(result))
    && !laid[ci + n + 1].Uses(result)
  }

  lemma RedirectedBlock(b: Block, result: ValueId, retArg: ValueId)
    requires result != retArg && !b.Uses(retArg)
    ensures var b' := b.RenameValues(Subst(result, retArg));
            !b'.Uses(result) && (b'.Uses(retArg) <==> b.Uses(result))
  {
    SubstBlockUses(b, result, retArg, result);
    SubstBlockUses(b, result, retArg, retArg);
  }

  /** On a split, no instruction of the caller's block, nor anything in the
      return-to block or in the caller's other blocks, reads the apply's result
      any more; each of the caller's other blocks reads the return-to block's
      parameter exactly where it read the result, that parameter being fresh. */
  lemma SplitRedirectsResult(laid: seq<Block>, blocks: seq<Block>, ci: nat, k: nat, entryClones: seq<Inst>,
                             clonedBlocks: seq<Block>, result: ValueId, retArg: ValueId, resultType: TypeId,
                             returnToId: BlockId, terms: seq<Terminator>)
    requires ci < |blocks| && k <= |blocks[ci].insts| && |terms| == |clonedBlocks| + 1
    requires SplitLayout(laid, blocks, ci, k, entryClones, clonedBlocks, result, retArg, resultType, returnToId, terms)
    requires result != retArg && forall i :: 0 <= i < |blocks| ==> !blocks[i].Uses(retArg)
    ensures ResultRedirected(laid, blocks, ci, |clonedBlocks|, result, retArg)
  {
    var n, rho := |clonedBlocks|, Subst(result, retArg);
    var head, blocksHead := laid[..ci], blocks[..ci];
    var tail, blocksTail := laid[ci + n + 2..], blocks[ci + 1..];
    forall j | 0 <= j < |tail| ensures tail[j] == blocksTail[j].RenameValues(rho) {
      assert tail[j] == laid[(ci + 1 + j) + n + 1];
    }
    RedirectedAll(head, blocksHead, result, retArg);
    RedirectedAll(tail, blocksTail, result, retArg);
    forall i | 0 <= i < ci ensures !laid[i].Uses(result) && (laid[i].Uses(retArg) <==> blocks[i].Uses(result)) {
      assert laid[i] == head[i] && blocks[i] == blocksHead[i];
    }
    forall m | ci + n + 1 < m < |laid|
      ensures !laid[m].Uses(result) && (laid[m].Uses(retArg) <==> blocks[m - n - 1].Uses(result))
    {
      assert laid[m] == tail[m - ci - n - 2] && blocks[m - n - 1] == blocksTail[m - ci - n - 2];
    }
    SplitEndsRedirected(laid, blocks, ci, k, entryClones, clonedBlocks, result, retArg, resultType, returnToId, terms);
  }

  /** Blocks renamed by `Subst(result, retArg)`, where `retArg` was unused,
      read `retArg` exactly where the originals read `result`. */
  lemma RedirectedAll(xs: seq<Block>, ys: seq<Block>, result: ValueId, retArg: ValueId)
    requires |xs| == |ys| && forall i :: 0 <= i < |xs| ==> xs[i] == ys[i].RenameValues(Subst(result, retArg))
    requires result != retArg && forall i :: 0 <= i < |ys| ==> !ys[i].Uses(retArg)
    ensures forall i :: 0 <= i < |xs| ==> !xs[i].Uses(result) && (xs[i].Uses(retArg) <==> ys[i].Uses(result))
  {
    forall i | 0 <= i < |xs| ensures !xs[i].Uses(result) && (xs[i].Uses(retArg) <==> ys[i].Uses(result)) {
      RedirectedBlock(ys[i], result, retArg);
    }
  }

  lemma SplitEndsRedirected(laid: seq<Block>, blocks: seq<Block>, ci: nat, k: nat, entryClones: seq<Inst>,
                            clonedBlocks: seq<Block>, result: ValueId, retArg: ValueId, resultType: TypeId,
                            returnToId: BlockId, terms: seq<Terminator>)
    requires ci < |blocks| && k <= |blocks[ci].insts| && |terms| == |clonedBlocks| + 1
    requires SplitLayout(laid, blocks, ci, k, entryClones, clonedBlocks, result, retArg, resultType, returnToId, terms)
    requires result != retArg
    ensures forall j :: 0 <= j < |laid[ci].insts| ==> !laid[ci].insts[j].Uses(result)
    ensures !laid[ci + |clonedBlocks| + 1].Uses(result)
  {
    var cb := blocks[ci];
    var pre := cb.insts[..k] + entryClones;
    forall j | 0 <= j < |laid[ci].insts| ensures !laid[ci].insts[j].Uses(result) {
      SubstInstUses(pre[j], result, retArg);
    }
    SubstBlockUses(Block(returnToId, [Param(retArg, resultType, Owned)], cb.insts[k..], cb.term), result, retArg, result);
  }

  /** Replaces the block at `ci` by `pre`, the cloned blocks and `rt`. */
  function Splice(blocks: seq<Block>, ci: nat, pre: Block, middle: seq<Block>, rt: Block): (r: seq<Block>)
    requires ci < |blocks|
    ensures |r| == |blocks| + |middle| + 1
    ensures forall i :: 0 <= i < ci ==> r[i] == blocks[i]
    ensures r[ci] == pre
    ensures forall j :: 0 <= j < |middle| ==> r[ci + 1 + j] == middle[j]
    ensures r[ci + |middle| + 1] == rt
    ensures forall i :: ci < i < |blocks| ==> r[i + |middle| + 1] == blocks[i]
  {
    blocks[..ci] + [pre] + middle + [rt] + blocks[ci + 1..]
  }

  /** The shape of a try_apply layout: the caller's blocks before and after
      `ci` are unchanged, block `ci` has the entry's clones appended and the
      first terminator, and the cloned blocks follow it with the others. */
  predicate TryApplyLayout(laid: seq<Block>, blocks: seq<Block>, ci: nat, entryClones: seq<Inst>,
                           clonedBlocks: seq<Block>, terms: seq<Terminator>)
    requires ci < |blocks| && |terms| == |clonedBlocks| + 1
  {
    var cb := blocks[ci];
    && |laid| == |blocks| + |clonedBlocks|
    && (forall i :: 0 <= i < ci ==> laid[i] == blocks[i])
    && (forall i :: ci < i < |blocks| ==> laid[i + |clonedBlocks|] == blocks[i])
    && laid[ci] == cb.(insts := cb.insts + entryClones, term := terms[0])
    && (forall j :: 0 <= j < |clonedBlocks| ==> laid[ci + 1 + j] == clonedBlocks[j].(term := terms[j + 1]))
  }

  /** A try_apply: the entry's clones are appended to the caller block, whose
      terminator becomes the entry's rewritten terminator; the cloned blocks
      follow it. The try_apply's normal block is the return-to block. */
  function LayoutTryApply(caller: Function, ci: nat, entryClones: seq<Inst>, clonedBlocks: seq<Block>,
                          terms: seq<Terminator>)
    : (f: Function)
    requires ci < |caller.blocks| && |terms| == |clonedBlocks| + 1
    ensures f.id == caller.id && f.repr == caller.repr && f.scope == caller.scope
    ensures HoldsTerms(f.blocks, ci, caller.blocks[ci].id, clonedBlocks, terms)
    ensures TryApplyLayout(f.blocks, caller.blocks, ci, entryClones, clonedBlocks, terms)
  {
    var cb := caller.blocks[ci];
    var pre := cb.(insts := cb.insts + entryClones);
    var spliced := SpliceNoReturn(caller.blocks, ci, pre, clonedBlocks);
    var laid := SetTerms(spliced, ci, terms);
    caller.(blocks := laid)
  }

  /** Replaces the block at `ci` by `pre` and the cloned blocks. */
  function SpliceNoReturn(blocks: seq<Block>, ci: nat, pre: Block, middle: seq<Block>): (r: seq<Block>)
    requires ci < |blocks|
    ensures |r| == |blocks| + |middle|
    ensures forall i :: 0 <= i < ci ==> r[i] == blocks[i]
    ensures r[ci] == pre
    ensures forall j :: 0 <= j < |middle| ==> r[ci + 1 + j] == middle[j]
    ensures forall i :: ci < i < |blocks| ==> r[i + |middle|] == blocks[i]
  {
    blocks[..ci] + [pre] + middle + blocks[ci + 1..]
  }

  /** Splitting the caller's instructions at `k` and putting the clones in
      between adds exactly the clones' kinds. */
  lemma SplitInstsKinds(insts: seq<Inst>, k: nat, entryClones: seq<Inst>)
    requires k <= |insts|
    ensures KindsOf(insts[..k] + entryClones) + KindsOf(insts[k..])
            == KindsOf(insts[..k]) + KindsOf(entryClones) + KindsOf(insts[k..])
    ensures KindsOf(insts) == KindsOf(insts[..k]) + KindsOf(insts[k..])
  {
    KindsOfAppend(insts[..k], entryClones);
    KindsOfAppend(insts[..k], insts[k..]);
    assert insts == insts[..k] + insts[k..];
  }

  /** A layout that puts `mid` where the block at `ci` was, keeping the
      instructions of every other block, trades that block's instructions for
      those of `mid`, kind by kind. */
  lemma LayoutKinds(laid: seq<Block>, blocks: seq<Block>, ci: nat, mid: seq<Block>)
    requires ci < |blocks| && |laid| + 1 == |blocks| + |mid|
    requires SameInsts(laid[..ci], blocks[..ci])
    requires SameInsts(laid[ci..ci + |mid|], mid)
    requires SameInsts(laid[ci + |mid|..], blocks[ci + 1..])
    ensures forall kind ::
      multiset(BlockKinds(laid))[kind] + multiset(KindsOf(blocks[ci].insts))[kind]
        == multiset(BlockKinds(blocks))[kind] + multiset(BlockKinds(mid))[kind]
  {
    var a, b, c := laid[..ci], laid[ci..ci + |mid|], laid[ci + |mid|..];
    assert laid == a + b + c;
    SameInstKinds(a, blocks[..ci]);
    SameInstKinds(b, mid);
    SameInstKinds(c, blocks[ci + 1..]);
    BlockKindsAppend(a + b, c);
    BlockKindsAppend(a, b);
    BlockKindsAround(blocks, ci);
    assert BlockKinds(laid) == BlockKinds(blocks[..ci]) + BlockKinds(mid) + BlockKinds(blocks[ci + 1..]);
  }

  /** Each layout adds exactly the kinds of the clones to the caller: nothing
      of the caller's is lost (the apply itself stays, moved to the return-to
      block on a split), and nothing else is added. */
  lemma FastPathKinds(caller: Function, ci: nat, k: nat, entryClones: seq<Inst>, result: ValueId, rv: ValueId)
    requires ci < |caller.blocks| && k <= |caller.blocks[ci].insts|
    ensures forall kind :: multiset(BlockKinds(LayoutFastPath(caller, ci, k, entryClones, result, rv).blocks))[kind]
              == multiset(BlockKinds(caller.blocks))[kind] + multiset(KindsOf(entryClones))[kind]
  {
    var f := LayoutFastPath(caller, ci, k, entryClones, result, rv);
    var rho := Subst(result, rv);
    var cb := caller.blocks[ci];
    var cb' := cb.(insts := cb.insts[..k] + entryClones + cb.insts[k..]);
    forall i | 0 <= i < ci ensures KindsOf(f.blocks[..ci][i].insts) == KindsOf(caller.blocks[..ci][i].insts) {
      RenameInstsKinds(caller.blocks[i].insts, rho);
    }
    RenameInstsKinds(cb'.insts, rho);
    assert SameInsts(f.blocks[ci..ci + 1], [cb']);
    var tail, callerTail := f.blocks[ci + 1..], caller.blocks[ci + 1..];
    forall i | 0 <= i < |callerTail| ensures KindsOf(tail[i].insts) == KindsOf(callerTail[i].insts) {
      RenameInstsKinds(caller.blocks[ci + 1 + i].insts, rho);
    }
    LayoutKinds(f.blocks, caller.blocks, ci, [cb']);
    BlockKindsSingle(cb');
    SplitInstsKinds(cb.insts, k, entryClones);
    KindsOfAppend(cb.insts[..k] + entryClones, cb.insts[k..]);
  }

  lemma SplitKinds(laid: seq<Block>, blocks: seq<Block>, ci: nat, k: nat, entryClones: seq<Inst>, clonedBlocks: seq<Block>,
                   result: ValueId, retArg: ValueId, resultType: TypeId, returnToId: BlockId, terms: seq<Terminator>)
    requires ci < |blocks| && k <= |blocks[ci].insts| && |terms| == |clonedBlocks| + 1
    requires SplitLayout(laid, blocks, ci, k, entryClones, clonedBlocks, result, retArg, resultType, returnToId, terms)
    ensures forall kind :: multiset(BlockKinds(laid))[kind]
              == multiset(BlockKinds(blocks))[kind] + multiset(KindsOf(entryClones))[kind] + multiset(BlockKinds(clonedBlocks))[kind]
  {
    var rho := Subst(result, retArg);
    var cb := blocks[ci];
    var pre := cb.(insts := cb.insts[..k] + entryClones);
    var rt := Block(returnToId, [Param(retArg, resultType, Owned)], cb.insts[k..], cb.term);
    var front := [pre] + clonedBlocks;
    var mid := front + [rt];
    var n := |clonedBlocks|;
    forall i | 0 <= i < ci ensures KindsOf(laid[..ci][i].insts) == KindsOf(blocks[..ci][i].insts) {
      RenameInstsKinds(blocks[i].insts, rho);
    }
    forall j | 0 <= j < |mid| ensures KindsOf(laid[ci..ci + |mid|][j].insts) == KindsOf(mid[j].insts) {
      RenameInstsKinds(mid[j].insts, rho);
      if j == 0 {
      } else if j <= n {
        assert mid[j] == front[j] == clonedBlocks[j - 1];
        assert laid[ci + 1 + (j - 1)] == clonedBlocks[j - 1].RenameValues(rho).(term := terms[j]);
      } else {
        assert mid[j] == rt;
      }
    }
    var tail, callerTail := laid[ci + |mid|..], blocks[ci + 1..];
    forall i | 0 <= i < |callerTail| ensures KindsOf(tail[i].insts) == KindsOf(callerTail[i].insts) {
      RenameInstsKinds(blocks[ci + 1 + i].insts, rho);
      assert laid[(ci + 1 + i) + n + 1] == blocks[ci + 1 + i].RenameValues(rho);
    }
    LayoutKinds(laid, blocks, ci, mid);
    BlockKindsAppend(front, [rt]);
    BlockKindsAppend([pre], clonedBlocks);
    BlockKindsSingle(pre);
    BlockKindsSingle(rt);
    KindsOfAppend(cb.insts[..k], entryClones);
    SplitInstsKinds(cb.insts, k, entryClones);
    assert BlockKinds(mid) == KindsOf(cb.insts[..k]) + KindsOf(entryClones) + BlockKinds(clonedBlocks) + KindsOf(cb.insts[k..]);
  }

  lemma TryApplyKinds(laid: seq<Block>, blocks: seq<Block>, ci: nat, entryClones: seq<Inst>, clonedBlocks: seq<Block>,
                      terms: seq<Terminator>)
    requires ci < |blocks| && |terms| == |clonedBlocks| + 1
    requires TryApplyLayout(laid, blocks, ci, entryClones, clonedBlocks, terms)
    ensures forall kind :: multiset(BlockKinds(laid))[kind]
              == multiset(BlockKinds(blocks))[kind] + multiset(KindsOf(entryClones))[kind] + multiset(BlockKinds(clonedBlocks))[kind]
  {
    var cb := blocks[ci];
    var pre := cb.(insts := cb.insts + entryClones);
    var mid := [pre] + clonedBlocks;
    var n := |clonedBlocks|;
    assert SameInsts(laid[..ci], blocks[..ci]);
    forall j | 0 <= j < |mid| ensures KindsOf(laid[ci..ci + |mid|][j].insts) == KindsOf(mid[j].insts) {
      if j > 0 {
        assert mid[j] == clonedBlocks[j - 1];
        assert laid[ci + 1 + (j - 1)] == clonedBlocks[j - 1].(term := terms[j]);
      }
    }
    var tail, callerTail := laid[ci + |mid|..], blocks[ci + 1..];
    forall i | 0 <= i < |callerTail| ensures KindsOf(tail[i].insts) == KindsOf(callerTail[i].insts) {
      assert laid[(ci + 1 + i) + n] == blocks[ci + 1 + i];
    }
    LayoutKinds(laid, blocks, ci, mid);
    BlockKindsAppend([pre], clonedBlocks);
    BlockKindsSingle(pre);
    KindsOfAppend(cb.insts, entryClones);
  }

  /** Clones keep their originals' kinds, so the entry's clones have the
      kinds of the entry's kept instructions and each cloned block those of
      its source's. Counted by kind, the clones are the entry and the cloned
      sources with the dropped kinds taken out. */
  lemma InstClonesKinds(ctx: CloneContext, st: InlineScopes, insts: seq<Inst>, clones: seq<Inst>)
    requires |clones| == |Kept(ctx.kind, insts)|
    requires forall j :: 0 <= j < |clones| ==> ClonedFrom(ctx, st, Kept(ctx.kind, insts)[j], clones[j])
    ensures forall kind :: multiset(KindsOf(clones))[kind] == if Dropped(ctx.kind, kind) then 0 else multiset(KindsOf(insts))[kind]
  {
    assert KindsOf(clones) == KindsOf(Kept(ctx.kind, insts));
    forall kind ensures multiset(KindsOf(clones))[kind] == if Dropped(ctx.kind, kind) then 0 else multiset(KindsOf(insts))[kind] {
      KeptKinds(ctx.kind, insts, kind);
    }
  }

  lemma {:induction false} BlockClonesKinds(ctx: CloneContext, st: InlineScopes, srcs: seq<Block>, clonedBlocks: seq<Block>)
    requires |clonedBlocks| == |srcs|
    requires forall j :: 0 <= j < |srcs| ==> BlockClonedFrom(ctx, st, srcs[j], clonedBlocks[j])
    ensures forall kind :: multiset(BlockKinds(clonedBlocks))[kind] == if Dropped(ctx.kind, kind) then 0 else multiset(BlockKinds(srcs))[kind]
  {
    if srcs != [] {
      assert BlockClonedFrom(ctx, st, srcs[0], clonedBlocks[0]);
      InstClonesKinds(ctx, st, srcs[0].insts, clonedBlocks[0].insts);
      forall j | 0 <= j < |srcs[1..]| ensures BlockClonedFrom(ctx, st, srcs[1..][j], clonedBlocks[1..][j]) {
        assert BlockClonedFrom(ctx, st, srcs[j + 1], clonedBlocks[j + 1]);
      }
      BlockClonesKinds(ctx, st, srcs[1..], clonedBlocks[1..]);
    }
  }

  /** The scope `s` of an inlined instruction is a scope of the arena whose
      inlined-call-site spine passes through the call-site scope, and it
      belongs to the caller function `fn`. */
  predicate InCallerScope(arena: seq<Scope>, callSiteScope: ScopeId, fn: FuncId, s: Option<ScopeId>) {
    && WellFormedArena(arena)
    && s.Some? && s.value < |arena|
    && Reaches(arena, s.value, callSiteScope)
    && ParentFunctionOf(arena, s.value) == fn
  }

  lemma ClonedScopeInCaller(ctx: CloneContext, st: InlineScopes, fn: FuncId, orig: Inst, c: Inst)
    requires CacheConsistent(st, ctx.callSiteScope) && ParentFunctionOf(st.arena, ctx.callSiteScope) == fn
    requires ClonedFrom(ctx, st, orig, c)
    ensures InCallerScope(st.arena, ctx.callSiteScope, fn, c.scope)
    ensures ctx.kind == MandatoryInline ==> c.scope == Some(ctx.callSiteScope)
  {
    if ctx.kind == PerformanceInline && orig.scope.Some? {
      var k := orig.scope.value;
      StitchedReachesCallSite(st.arena, ctx.callSiteScope, Some(k), st.cache[k]);
      StitchedParentFunction(st.arena, ctx.callSiteScope, Some(k), st.cache[k]);
    }
  }

  // ---------------------------------------------------------------------------
  // One inlining step.
  // ---------------------------------------------------------------------------

  /** The result of one inlining step: the caller with the callee inlined,
      the scope state, the clone context (with both maps and the call-site
      scope), where exits go, the clones, the value the return-to block's
      parameter gets when there is a split, and the return-to block (none on
      the fast path). */
  datatype InlineResult = InlineResult(
    caller: Function,
    scopes: InlineScopes,
    ctx: CloneContext,
    exits: ExitPlan,
    entryClones: seq<Inst>,
    clonedBlocks: seq<Block>,
    retArg: ValueId,
    returnTo: Option<BlockId>)

  /** An apply whose callee entry block returns needs no split. */
  predicate IsFastPath(inl: SILInliner, ai: CallSite)
    requires |inl.original.blocks| > 0
  {
    ai.ApplySite? && inl.original.blocks[0].term.Return?
  }

  /** Returns branch to the return-to block: the try_apply's normal block, or
      the block split off the caller's. Throws go to the try_apply's error
      block, or nowhere for an apply. */
  function Exits(caller: Function, ai: CallSite, returnToId: BlockId): (e: ExitPlan)
    requires ValidSite(caller, ai)
  {
    match ai
    case ApplySite(_, _, _, _, _) => ExitPlan(returnToId, None)
    case TryApplySite(_, _, _, _) =>
      var t := SiteBlock(caller, ai).term;
      ExitPlan(t.normalDest, Some(t.errorDest))
  }

  /** On the fast path nothing but the entry block is reachable, so no block
      is cloned. */
  lemma FastPathClonesNoBlock(callee: Function)
    requires Cfg.WellFormedCfg(callee) && callee.blocks[0].term.Return?
    ensures ClonedSources(callee) == []
  {
    Cfg.NoSuccessorsOnlyEntry(callee);
    ClonedSourcesAreReachable(callee);
    var srcs := ClonedSources(callee);
    if srcs != [] {
      LabelOfListed(srcs, 0);
      assert false;
    }
  }

  lemma LabelOfListed(srcs: seq<Block>, j: nat)
    requires j < |srcs|
    ensures srcs[j].id in (set i | 0 <= i < |srcs| :: srcs[i].id)
  {
  }

  function InlineFunction(inl: SILInliner, caller: Function, ai: CallSite, args: seq<ValueId>, arena: seq<Scope>)
    : (r: InlineResult)
    requires InlinePreconditions(inl, caller, ai, args, arena)
    ensures r.caller.id == caller.id && r.caller.repr == caller.repr && r.caller.scope == caller.scope
    ensures r.ctx.valueMap == InlineValueMap(inl.kind, inl.original.blocks[0], ClonedSources(inl.original), args, BlocksValueBound(caller.blocks))
    ensures r.ctx.blockMap == InlineBlockMap(inl.original, ai.block, BlocksLabelBound(caller.blocks))
    // Scopes and locations.
    ensures r.ctx.kind == inl.kind && r.ctx.loc == InlineLocation(inl.kind, SiteLoc(caller, ai))
    ensures arena <= r.scopes.arena && CacheConsistent(r.scopes, r.ctx.callSiteScope)
    ensures ParentFunctionOf(r.scopes.arena, r.ctx.callSiteScope) == caller.id
    ensures inl.kind == MandatoryInline ==> r.ctx.callSiteScope == ApplyScope(caller, ai)
    // The clones.
    ensures var kept := Kept(inl.kind, inl.original.blocks[0].insts);
            |r.entryClones| == |kept| && forall j :: 0 <= j < |kept| ==> ClonedFrom(r.ctx, r.scopes, kept[j], r.entryClones[j])
    ensures var srcs := ClonedSources(inl.original);
            |r.clonedBlocks| == |srcs| && forall j :: 0 <= j < |srcs| ==> BlockClonedFrom(r.ctx, r.scopes, srcs[j], r.clonedBlocks[j])
    // Where exits go.
    ensures r.exits.errorDest.None? <==> ai.ApplySite?
    ensures ai.TryApplySite? ==> r.returnTo == Some(SiteBlock(caller, ai).term.normalDest) && r.exits.returnTo == r.returnTo.value
    ensures ai.TryApplySite? ==> r.exits.errorDest == Some(SiteBlock(caller, ai).term.errorDest)
  {
    var p := Prepare(inl, caller, ai, args, arena);
    var exits := Exits(caller, ai, p.returnToId);
    var (f, returnTo) := Assemble(inl, caller, ai, p, exits);
    InlineResult(f, p.scopes, p.ctx, exits, p.entryClones, p.clonedBlocks, p.retArg, returnTo)
  }

  /** Places the clones in the caller along the path the call site takes. */
  function Assemble(inl: SILInliner, caller: Function, ai: CallSite, p: Plan, exits: ExitPlan)
    : (res: (Function, Option<BlockId>))
    requires Cfg.WellFormedCfg(inl.original) && ValidSite(caller, ai)
    requires |p.clonedBlocks| == |p.srcs|
    requires exits == Exits(caller, ai, p.returnToId)
    ensures res.0.id == caller.id && res.0.repr == caller.repr && res.0.scope == caller.scope
    ensures ai.TryApplySite? ==> res.1 == Some(exits.returnTo)
  {
    var entry := inl.original.blocks[0];
    var ci := SiteIndex(caller, ai);
    var terms := RewrittenTerms(p.ctx, exits, entry, p.srcs);
    if IsFastPath(inl, ai) then
      (LayoutFastPath(caller, ci, ai.index, p.entryClones, ApplyResult(caller, ai), Remap(p.ctx.valueMap, entry.term.value)), None)
    else if ai.ApplySite? then
      (LayoutSplit(caller, ci, ai.index, p.entryClones, p.clonedBlocks, ApplyResult(caller, ai), p.retArg,
                   ai.resultType, p.returnToId, terms), Some(p.returnToId))
    else
      (LayoutTryApply(caller, ci, p.entryClones, p.clonedBlocks, terms), Some(exits.returnTo))
  }

  // ---------------------------------------------------------------------------
  // Properties of one inlining step.
  // ---------------------------------------------------------------------------

  /** Seeding: entry parameter i is bound to argument i (its first position
      wins if it repeats), the entry block is mapped onto the caller's block,
      and exactly the reachable callee blocks are mapped. */
  lemma InlineSeedsEntry(inl: SILInliner, caller: Function, ai: CallSite, args: seq<ValueId>, arena: seq<Scope>)
    requires InlinePreconditions(inl, caller, ai, args, arena)
    ensures var r := InlineFunction(inl, caller, ai, args, arena);
            var entry := inl.original.blocks[0];
      && (forall i :: 0 <= i < |args| && FirstKey(ParamValues(entry.params), i) ==>
            entry.params[i].value in r.ctx.valueMap && r.ctx.valueMap[entry.params[i].value] == args[i])
      && r.ctx.blockMap.Keys == Cfg.ReachableBlocks(inl.original)
      && r.ctx.blockMap[Cfg.Entry(inl.original)] == ai.block
  {
  }

  /** Which layout one inlining step produces: the fast path for an apply
      whose callee entry returns (no block is cloned then), the split for any
      other apply, and the try_apply layout otherwise. The return-to block is
      absent, the split-off block, or the try_apply's normal block. */
  lemma InlineTakesPath(inl: SILInliner, caller: Function, ai: CallSite, args: seq<ValueId>, arena: seq<Scope>)
    requires InlinePreconditions(inl, caller, ai, args, arena)
    ensures var r := InlineFunction(inl, caller, ai, args, arena);
            var entry := inl.original.blocks[0];
            var ci := SiteIndex(caller, ai);
            var terms := RewrittenTerms(r.ctx, r.exits, entry, ClonedSources(inl.original));
      && (IsFastPath(inl, ai) ==>
            && r.returnTo.None? && r.clonedBlocks == []
            && r.caller == LayoutFastPath(caller, ci, ai.index, r.entryClones, ApplyResult(caller, ai),
                                          Remap(r.ctx.valueMap, entry.term.value)))
      && (ai.ApplySite? && !IsFastPath(inl, ai) ==>
            && r.returnTo == Some(r.exits.returnTo)
            && r.exits.returnTo == BlocksLabelBound(caller.blocks) + |r.clonedBlocks|
            && r.retArg >= BlocksValueBound(caller.blocks)
            && r.caller == LayoutSplit(caller, ci, ai.index, r.entryClones, r.clonedBlocks, ApplyResult(caller, ai),
                                       r.retArg, ai.resultType, r.exits.returnTo, terms))
      && (ai.TryApplySite? ==>
            && r.returnTo == Some(caller.blocks[ci].term.normalDest)
            && r.caller == LayoutTryApply(caller, ci, r.entryClones, r.clonedBlocks, terms))
  {
    if IsFastPath(inl, ai) {
      FastPathClonesNoBlock(inl.original);
    }
  }

  /** Off the fast path, every mapped block gets the rewritten version of its
      callee block's terminator (so none of them ends in a return or a
      throw): the caller's block, which keeps its id, takes the entry's, and
      the block after it for each clone, whose id is the block map's image of
      the clone's callee block, takes that block's. */
  lemma TerminatorsRewritten(inl: SILInliner, caller: Function, ai: CallSite, args: seq<ValueId>, arena: seq<Scope>)
    requires InlinePreconditions(inl, caller, ai, args, arena) && !IsFastPath(inl, ai)
    ensures var r := InlineFunction(inl, caller, ai, args, arena);
            var srcs := ClonedSources(inl.original);
      && HoldsTerms(r.caller.blocks, SiteIndex(caller, ai), ai.block, r.clonedBlocks,
                    RewrittenTerms(r.ctx, r.exits, inl.original.blocks[0], srcs))
      && |r.clonedBlocks| == |srcs|
      && forall j :: 0 <= j < |srcs| ==> r.clonedBlocks[j].id == r.ctx.blockMap[srcs[j].id]
  {
    var r := InlineFunction(inl, caller, ai, args, arena);
    var srcs := ClonedSources(inl.original);
    InlineTakesPath(inl, caller, ai, args, arena);
    forall j | 0 <= j < |srcs| ensures r.clonedBlocks[j].id == r.ctx.blockMap[srcs[j].id] {
      assert BlockClonedFrom(r.ctx, r.scopes, srcs[j], r.clonedBlocks[j]);
    }
  }

  /** The blocks a layout gives the rewritten terminators: the caller's block
      at `ci`, then one block per clone, each keeping the clone's id. */
  predicate HoldsTerms(blocks: seq<Block>, ci: nat, callerBlock: BlockId, clonedBlocks: seq<Block>, terms: seq<Terminator>) {
    && |terms| == |clonedBlocks| + 1
    && ci + |terms| <= |blocks|
    && blocks[ci].id == callerBlock
    && (forall j :: 0 <= j < |terms| ==> blocks[ci + j].term == terms[j])
    && (forall j :: 0 <= j < |clonedBlocks| ==> blocks[ci + 1 + j].id == clonedBlocks[j].id)
  }

  /** Inlining adds to the caller exactly the instructions of the callee's
      entry block and of every other reachable callee block, counted by kind,
      except that mandatory inlining leaves out debug_value and
      debug_value_addr. Nothing of the caller's is lost: the apply itself
      stays. */
  lemma InlineKinds(inl: SILInliner, caller: Function, ai: CallSite, args: seq<ValueId>, arena: seq<Scope>)
    requires InlinePreconditions(inl, caller, ai, args, arena)
    ensures var r := InlineFunction(inl, caller, ai, args, arena);
            var callee := [inl.original.blocks[0]] + ClonedSources(inl.original);
      forall kind :: multiset(BlockKinds(r.caller.blocks))[kind]
        == multiset(BlockKinds(caller.blocks))[kind] + if Dropped(inl.kind, kind) then 0 else multiset(BlockKinds(callee))[kind]
  {
    var r := InlineFunction(inl, caller, ai, args, arena);
    var entry := inl.original.blocks[0];
    var srcs := ClonedSources(inl.original);
    var ci := SiteIndex(caller, ai);
    InlineTakesPath(inl, caller, ai, args, arena);
    var terms := RewrittenTerms(r.ctx, r.exits, entry, srcs);
    if IsFastPath(inl, ai) {
      FastPathKinds(caller, ci, ai.index, r.entryClones, ApplyResult(caller, ai), Remap(r.ctx.valueMap, entry.term.value));
    } else if ai.ApplySite? {
      SplitKinds(r.caller.blocks, caller.blocks, ci, ai.index, r.entryClones, r.clonedBlocks, ApplyResult(caller, ai),
                 r.retArg, ai.resultType, r.exits.returnTo, terms);
    } else {
      TryApplyKinds(r.caller.blocks, caller.blocks, ci, r.entryClones, r.clonedBlocks, terms);
    }
    InstClonesKinds(r.ctx, r.scopes, entry.insts, r.entryClones);
    BlockClonesKinds(r.ctx, r.scopes, srcs, r.clonedBlocks);
    BlockKindsAppend([entry], srcs);
    BlockKindsSingle(entry);
  }

  /** Every inlined instruction gets a scope that belongs to the caller and
      whose inlined-call-site spine reaches the call-site scope; under
      mandatory inlining that is the call-site scope itself. */
  lemma InlinedScopesInCaller(inl: SILInliner, caller: Function, ai: CallSite, args: seq<ValueId>, arena: seq<Scope>)
    requires InlinePreconditions(inl, caller, ai, args, arena)
    ensures var r := InlineFunction(inl, caller, ai, args, arena);
            var css := r.ctx.callSiteScope;
      && (forall j :: 0 <= j < |r.entryClones| ==>
            && InCallerScope(r.scopes.arena, css, caller.id, r.entryClones[j].scope)
            && (inl.kind == MandatoryInline ==> r.entryClones[j].scope == Some(css)))
      && (forall b, j :: 0 <= b < |r.clonedBlocks| && 0 <= j < |r.clonedBlocks[b].insts| ==>
            && InCallerScope(r.scopes.arena, css, caller.id, r.clonedBlocks[b].insts[j].scope)
            && (inl.kind == MandatoryInline ==> r.clonedBlocks[b].insts[j].scope == Some(css)))
  {
    var r := InlineFunction(inl, caller, ai, args, arena);
    var kept := Kept(inl.kind, inl.original.blocks[0].insts);
    var srcs := ClonedSources(inl.original);
    forall j | 0 <= j < |r.entryClones|
      ensures InCallerScope(r.scopes.arena, r.ctx.callSiteScope, caller.id, r.entryClones[j].scope)
      ensures inl.kind == MandatoryInline ==> r.entryClones[j].scope == Some(r.ctx.callSiteScope)
    {
      ClonedScopeInCaller(r.ctx, r.scopes, caller.id, kept[j], r.entryClones[j]);
    }
    forall b, j | 0 <= b < |r.clonedBlocks| && 0 <= j < |r.clonedBlocks[b].insts|
      ensures InCallerScope(r.scopes.arena, r.ctx.callSiteScope, caller.id, r.clonedBlocks[b].insts[j].scope)
      ensures inl.kind == MandatoryInline ==> r.clonedBlocks[b].insts[j].scope == Some(r.ctx.callSiteScope)
    {
      assert BlockClonedFrom(r.ctx, r.scopes, srcs[b], r.clonedBlocks[b]);
      ClonedScopeInCaller(r.ctx, r.scopes, caller.id, Kept(inl.kind, srcs[b].insts)[j], r.clonedBlocks[b].insts[j]);
    }
  }

  /** On a split, uses of the apply's result are redirected to the return-to
      block's parameter, a value the caller did not use before: the caller's
      other blocks read the parameter exactly where they read the result, and
      none of them, nor the return-to block, nor any instruction left in the
      apply's block, reads the result any more. */
  lemma SplitRedirectsUses(inl: SILInliner, caller: Function, ai: CallSite, args: seq<ValueId>, arena: seq<Scope>)
    requires InlinePreconditions(inl, caller, ai, args, arena) && ai.ApplySite? && !IsFastPath(inl, ai)
    ensures var r := InlineFunction(inl, caller, ai, args, arena);
            var result := ApplyResult(caller, ai);
      && r.retArg != result
      && (forall i :: 0 <= i < |caller.blocks| ==> !caller.blocks[i].Uses(r.retArg))
      && ResultRedirected(r.caller.blocks, caller.blocks, SiteIndex(caller, ai), |r.clonedBlocks|, result, r.retArg)
      && r.caller.blocks[SiteIndex(caller, ai) + |r.clonedBlocks| + 1].params == [Param(r.retArg, ai.resultType, Owned)]
  {
    var r := InlineFunction(inl, caller, ai, args, arena);
    var ci := SiteIndex(caller, ai);
    var result := ApplyResult(caller, ai);
    var terms := RewrittenTerms(r.ctx, r.exits, inl.original.blocks[0], ClonedSources(inl.original));
    InlineTakesPath(inl, caller, ai, args, arena);
    FreshValueUnused(caller.blocks, r.retArg);
    assert caller.blocks[ci].insts[ai.index].result != r.retArg;
    SplitRedirectsResult(r.caller.blocks, caller.blocks, ci, ai.index, r.entryClones, r.clonedBlocks, result,
                         r.retArg, ai.resultType, r.exits.returnTo, terms);
  }

  /** A callee value maps to an argument or to a fresh number, and `undef`
      to itself unless the callee binds it; so neither reaches a caller value
      that is not an argument and not `undef`. */
  lemma RemapAvoids(kind: InlineKind, entry: Block, srcs: seq<Block>, args: seq<ValueId>, first: nat, x: ValueId, u: ValueId)
    requires |entry.params| == |args|
    requires u in ParamValues(entry.params) || u in Defs(kind, entry, srcs) || u == Undef
    requires x !in args && x < first && x != Undef
    ensures Remap(InlineValueMap(kind, entry, srcs, args, first), u) != x
  {
  }

  /** A rewritten terminator reads `x` only if the original read a value
      that the value map sends to `x`. */
  lemma RewriteAvoids(ctx: CloneContext, plan: ExitPlan, t: Terminator, x: ValueId)
    requires forall u :: t.Uses(u) ==> Remap(ctx.valueMap, u) != x
    ensures !RewriteTerminator(ctx, plan, t).Uses(x)
  {
    if t.Throw? && plan.errorDest.None? {
      assert RewriteTerminator(ctx, plan, t) == Unreachable;
    }
  }

  /** After a split whose new terminators do not read the apply's result, no
      block reads it: the renaming removed it everywhere else. */
  lemma SplitLeavesNoUse(laid: seq<Block>, blocks: seq<Block>, ci: nat, k: nat, entryClones: seq<Inst>,
                         clonedBlocks: seq<Block>, result: ValueId, retArg: ValueId, resultType: TypeId,
                         returnToId: BlockId, terms: seq<Terminator>)
    requires ci < |blocks| && k <= |blocks[ci].insts| && |terms| == |clonedBlocks| + 1
    requires SplitLayout(laid, blocks, ci, k, entryClones, clonedBlocks, result, retArg, resultType, returnToId, terms)
    requires ResultRedirected(laid, blocks, ci, |clonedBlocks|, result, retArg)
    requires result != retArg && forall j :: 0 <= j < |terms| ==> !terms[j].Uses(result)
    ensures forall i :: 0 <= i < |laid| ==> !laid[i].Uses(result)
  {
    var n, rho := |clonedBlocks|, Subst(result, retArg);
    forall i | 0 <= i < |laid| ensures !laid[i].Uses(result) {
      if ci < i <= ci + n {
        var c := clonedBlocks[i - ci - 1];
        assert laid[ci + 1 + (i - ci - 1)] == c.RenameValues(rho).(term := terms[i - ci]);
        forall j | 0 <= j < |laid[i].insts| ensures !laid[i].insts[j].Uses(result) {
          SubstInstUses(c.insts[j], result, retArg);
        }
      } else if i == ci {
        assert laid[ci].term == terms[0];
      }
    }
  }

  /** The values a visited callee block reads map to arguments or fresh
      numbers, so never to `x`, a caller value that is not an argument. */
  lemma VisitedReadsAvoid(kind: InlineKind, callee: Function, args: seq<ValueId>, first: nat, x: ValueId)
    requires Cfg.WellFormedCfg(callee) && |callee.blocks[0].params| == |args|
    requires ReadsOwnValues(kind, callee)
    requires x !in args && x < first && x != Undef
    ensures var entry, srcs := callee.blocks[0], ClonedSources(callee);
            var vm := InlineValueMap(kind, entry, srcs, args, first);
      forall j, u :: 0 <= j < |[entry] + srcs| && ([entry] + srcs)[j].Uses(u) ==> Remap(vm, u) != x
  {
    var entry, srcs := callee.blocks[0], ClonedSources(callee);
    forall j, u | 0 <= j < |[entry] + srcs| && ([entry] + srcs)[j].Uses(u)
      ensures Remap(InlineValueMap(kind, entry, srcs, args, first), u) != x
    {
      RemapAvoids(kind, entry, srcs, args, first, x, u);
    }
  }

  /** No rewritten terminator reads `x` when no visited block reads a value
      that maps to `x`. */
  lemma RewrittenTermsAvoid(ctx: CloneContext, plan: ExitPlan, entry: Block, srcs: seq<Block>, x: ValueId)
    requires forall j, u :: 0 <= j < |[entry] + srcs| && ([entry] + srcs)[j].Uses(u) ==> Remap(ctx.valueMap, u) != x
    ensures forall j :: 0 <= j < |srcs| + 1 ==> !RewrittenTerms(ctx, plan, entry, srcs)[j].Uses(x)
  {
    var visited := [entry] + srcs;
    forall j | 0 <= j < |srcs| + 1 ensures !RewrittenTerms(ctx, plan, entry, srcs)[j].Uses(x) {
      assert visited[j].term == if j == 0 then entry.term else srcs[j - 1].term;
      forall u | visited[j].term.Uses(u) ensures Remap(ctx.valueMap, u) != x {
        assert visited[j].Uses(u);
      }
      RewriteAvoids(ctx, plan, visited[j].term, x);
    }
  }

  // ---------------------------------------------------------------------------
  // `undef` survives inlining.
  // ---------------------------------------------------------------------------

  /** The caller's value bound is positive, so every fresh number is above
      `undef`. */
  lemma SiteValueBoundPositive(caller: Function, ai: CallSite)
    requires ValidSite(caller, ai)
    ensures Undef < BlocksValueBound(caller.blocks)
  {
    var cb := caller.blocks[SiteIndex(caller, ai)];
    assert BlockValueBound(cb) <= BlocksValueBound(caller.blocks);
    if ai.ApplySite? {
      assert cb.insts[ai.index].result < BlockValueBound(cb);
    } else {
      assert cb.Uses(cb.term.callee);
    }
  }

  /** The parameters and kept results of the `j`-th block are among the
      definitions of the list. */
  lemma {:induction false} InBlockDefs(kind: InlineKind, blocks: seq<Block>, j: nat)
    requires j < |blocks|
    ensures forall v :: v in ParamValues(blocks[j].params) || v in ResultsOf(Kept(kind, blocks[j].insts)) ==>
              v in BlockDefs(kind, blocks)
  {
    if j > 0 {
      InBlockDefs(kind, blocks[1..], j - 1);
      assert blocks[1..][j - 1] == blocks[j];
    }
  }

  /** Blocks that define no `undef` clone into definitions other than `undef`. */
  lemma {:induction false} BlockDefsNoUndef(kind: InlineKind, blocks: seq<Block>)
    requires BlocksDefineNoUndef(blocks)
    ensures Undef !in BlockDefs(kind, blocks)
  {
    if blocks != [] {
      var kept := Kept(kind, blocks[0].insts);
      assert Undef !in ParamValues(blocks[0].params);
      assert Undef !in ResultsOf(kept) by {
        forall i | 0 <= i < |kept| ensures kept[i].result != Undef {
          var m :| 0 <= m < |blocks[0].insts| && blocks[0].insts[m] == kept[i];
        }
      }
      assert BlocksDefineNoUndef(blocks[1..]) by {
        forall i | 0 <= i < |blocks[1..]| ensures DefinesNoUndef(blocks[1..][i]) {
          assert blocks[1..][i] == blocks[i + 1];
        }
      }
      BlockDefsNoUndef(kind, blocks[1..]);
    }
  }

  /** A callee that defines no `undef` has neither an entry parameter nor a
      cloned definition that is `undef`. */
  lemma CalleeDefsNoUndef(kind: InlineKind, callee: Function)
    requires Cfg.WellFormedCfg(callee) && BlocksDefineNoUndef(callee.blocks)
    ensures var entry := callee.blocks[0];
      Undef !in ParamValues(entry.params) && Undef !in Defs(kind, entry, ClonedSources(callee))
  {
    var entry, srcs := callee.blocks[0], ClonedSources(callee);
    assert DefinesNoUndef(entry);
    var kept := Kept(kind, entry.insts);
    assert Undef !in ResultsOf(kept) by {
      forall i | 0 <= i < |kept| ensures kept[i].result != Undef {
        var m :| 0 <= m < |entry.insts| && entry.insts[m] == kept[i];
      }
    }
    assert BlocksDefineNoUndef(srcs) by {
      forall j | 0 <= j < |srcs| ensures DefinesNoUndef(srcs[j]) {
        var m :| 0 <= m < |callee.blocks| && callee.blocks[m] == srcs[j];
      }
    }
    BlockDefsNoUndef(kind, srcs);
  }

  /** The value map leaves `undef` unbound and sends no definition to it:
      parameters are not redefined, and definitions get fresh numbers above
      `undef`. */
  lemma ValueMapKeepsUndef(kind: InlineKind, entry: Block, srcs: seq<Block>, args: seq<ValueId>, first: nat)
    requires |entry.params| == |args| && Undef < first
    requires Undef !in ParamValues(entry.params) && Undef !in Defs(kind, entry, srcs)
    requires forall v :: v in Defs(kind, entry, srcs) ==> v !in ParamValues(entry.params)
    ensures var vm := InlineValueMap(kind, entry, srcs, args, first);
      Remap(vm, Undef) == Undef && forall v :: v in Defs(kind, entry, srcs) ==> Remap(vm, v) != Undef
  {
    var vm := InlineValueMap(kind, entry, srcs, args, first);
    forall v | v in Defs(kind, entry, srcs) ensures Remap(vm, v) != Undef {
      if exists i :: 0 <= i < |args| && entry.params[i].value == v {
        var i :| 0 <= i < |args| && entry.params[i].value == v;
        assert ParamValues(entry.params)[i] == v;
      }
    }
  }

  /** Clones of definitions the value map keeps away from `undef` define no
      `undef`. */
  lemma ClonesDefineNoUndef(ctx: CloneContext, st: InlineScopes, entry: Block, srcs: seq<Block>,
                            entryClones: seq<Inst>, clonedBlocks: seq<Block>)
    requires forall v :: v in Defs(ctx.kind, entry, srcs) ==> Remap(ctx.valueMap, v) != Undef
    requires var kept := Kept(ctx.kind, entry.insts);
      |entryClones| == |kept| && forall j :: 0 <= j < |kept| ==> ClonedFrom(ctx, st, kept[j], entryClones[j])
    requires |clonedBlocks| == |srcs| && forall j :: 0 <= j < |srcs| ==> BlockClonedFrom(ctx, st, srcs[j], clonedBlocks[j])
    ensures forall j :: 0 <= j < |entryClones| ==> entryClones[j].result != Undef
    ensures BlocksDefineNoUndef(clonedBlocks)
  {
    var kept := Kept(ctx.kind, entry.insts);
    forall j | 0 <= j < |entryClones| ensures entryClones[j].result != Undef {
      assert ResultsOf(kept)[j] == kept[j].result;
    }
    forall j | 0 <= j < |srcs| ensures DefinesNoUndef(clonedBlocks[j]) {
      InBlockDefs(ctx.kind, srcs, j);
      var b, c := srcs[j], clonedBlocks[j];
      forall i | 0 <= i < |c.params| ensures c.params[i].value != Undef {
        assert ParamValues(b.params)[i] == b.params[i].value;
      }
      forall i | 0 <= i < |c.insts| ensures c.insts[i].result != Undef {
        assert ResultsOf(Kept(ctx.kind, b.insts))[i] == Kept(ctx.kind, b.insts)[i].result;
      }
    }
  }

  /** A renamed block defines what the original defined. */
  lemma RenamedDefinesNoUndef(b: Block, rho: ValueId -> ValueId)
    requires DefinesNoUndef(b)
    ensures DefinesNoUndef(b.RenameValues(rho))
  {
  }

  /** Instructions that define no `undef`, with clones that define none
      spliced in at `k`. */
  lemma SplicedInstsNoUndef(insts: seq<Inst>, k: nat, clones: seq<Inst>, rest: seq<Inst>)
    requires k <= |insts|
    requires forall i :: 0 <= i < |insts| ==> insts[i].result != Undef
    requires forall j :: 0 <= j < |clones| ==> clones[j].result != Undef
    requires rest == insts[..k] + clones
    ensures forall i :: 0 <= i < |rest| ==> rest[i].result != Undef
  {
    forall i | 0 <= i < |rest| ensures rest[i].result != Undef {
      if i < k { assert rest[i] == insts[i]; } else { assert rest[i] == clones[i - k]; }
    }
  }

  lemma FastPathNoUndef(caller: Function, ci: nat, k: nat, entryClones: seq<Inst>, result: ValueId, rv: ValueId)
    requires ci < |caller.blocks| && k <= |caller.blocks[ci].insts|
    requires BlocksDefineNoUndef(caller.blocks)
    requires forall j :: 0 <= j < |entryClones| ==> entryClones[j].result != Undef
    ensures BlocksDefineNoUndef(LayoutFastPath(caller, ci, k, entryClones, result, rv).blocks)
  {
    var f := LayoutFastPath(caller, ci, k, entryClones, result, rv);
    var cb := caller.blocks[ci];
    var insts := cb.insts[..k] + entryClones + cb.insts[k..];
    assert DefinesNoUndef(cb.(insts := insts)) by {
      assert DefinesNoUndef(cb);
      SplicedInstsNoUndef(cb.insts, k, entryClones, cb.insts[..k] + entryClones);
      forall i | 0 <= i < |insts| ensures insts[i].result != Undef {
        if i >= k + |entryClones| { assert insts[i] == cb.insts[i - |entryClones|]; }
        else { assert insts[i] == (cb.insts[..k] + entryClones)[i]; }
      }
    }
    forall i | 0 <= i < |f.blocks| ensures DefinesNoUndef(f.blocks[i]) {
      if i == ci {
        RenamedDefinesNoUndef(cb.(insts := insts), Subst(result, rv));
      } else {
        RenamedDefinesNoUndef(caller.blocks[i], Subst(result, rv));
      }
    }
  }

  lemma SplitNoUndef(laid: seq<Block>, blocks: seq<Block>, ci: nat, k: nat, entryClones: seq<Inst>,
                     clonedBlocks: seq<Block>, result: ValueId, retArg: ValueId, resultType: TypeId,
                     returnToId: BlockId, terms: seq<Terminator>)
    requires ci < |blocks| && k <= |blocks[ci].insts| && |terms| == |clonedBlocks| + 1
    requires SplitLayout(laid, blocks, ci, k, entryClones, clonedBlocks, result, retArg, resultType, returnToId, terms)
    requires BlocksDefineNoUndef(blocks) && BlocksDefineNoUndef(clonedBlocks) && retArg != Undef
    requires forall j :: 0 <= j < |entryClones| ==> entryClones[j].result != Undef
    ensures BlocksDefineNoUndef(laid)
  {
    var n, rho, cb := |clonedBlocks|, Subst(result, retArg), blocks[ci];
    assert DefinesNoUndef(cb);
    forall i | 0 <= i < |laid| ensures DefinesNoUndef(laid[i]) {
      if i < ci {
        RenamedDefinesNoUndef(blocks[i], rho);
      } else if i == ci {
        SplicedInstsNoUndef(cb.insts, k, entryClones, cb.insts[..k] + entryClones);
      } else if i <= ci + n {
        assert laid[ci + 1 + (i - ci - 1)] == clonedBlocks[i - ci - 1].RenameValues(rho).(term := terms[i - ci]);
        RenamedDefinesNoUndef(clonedBlocks[i - ci - 1], rho);
      } else if i == ci + n + 1 {
        var rt := Block(returnToId, [Param(retArg, resultType, Owned)], cb.insts[k..], cb.term);
        assert DefinesNoUndef(rt) by {
          forall m | 0 <= m < |rt.insts| ensures rt.insts[m].result != Undef {
            assert rt.insts[m] == cb.insts[k + m];
          }
        }
        RenamedDefinesNoUndef(rt, rho);
      } else {
        assert laid[(i - n - 1) + n + 1] == blocks[i - n - 1].RenameValues(rho);
        RenamedDefinesNoUndef(blocks[i - n - 1], rho);
      }
    }
  }

  lemma TryApplyNoUndef(laid: seq<Block>, blocks: seq<Block>, ci: nat, entryClones: seq<Inst>,
                        clonedBlocks: seq<Block>, terms: seq<Terminator>)
    requires ci < |blocks| && |terms| == |clonedBlocks| + 1
    requires TryApplyLayout(laid, blocks, ci, entryClones, clonedBlocks, terms)
    requires BlocksDefineNoUndef(blocks) && BlocksDefineNoUndef(clonedBlocks)
    requires forall j :: 0 <= j < |entryClones| ==> entryClones[j].result != Undef
    ensures BlocksDefineNoUndef(laid)
  {
    var n, cb := |clonedBlocks|, blocks[ci];
    assert DefinesNoUndef(cb);
    forall i | 0 <= i < |laid| ensures DefinesNoUndef(laid[i]) {
      if i == ci {
        SplicedInstsNoUndef(cb.insts, |cb.insts|, entryClones, cb.insts + entryClones);
        assert cb.insts[..|cb.insts|] == cb.insts;
      } else if ci < i <= ci + n {
        assert laid[ci + 1 + (i - ci - 1)] == clonedBlocks[i - ci - 1].(term := terms[i - ci]);
      } else if i > ci + n {
        assert laid[(i - n) + n] == blocks[i - n];
      }
    }
  }

  /** The definitions and clones of one step keep clear of `undef`. */
  lemma StepClonesNoUndef(inl: SILInliner, caller: Function, ai: CallSite, args: seq<ValueId>, arena: seq<Scope>)
    requires InlinePreconditions(inl, caller, ai, args, arena)
    ensures var r := InlineFunction(inl, caller, ai, args, arena);
      && Remap(r.ctx.valueMap, Undef) == Undef
      && (forall j :: 0 <= j < |r.entryClones| ==> r.entryClones[j].result != Undef)
      && BlocksDefineNoUndef(r.clonedBlocks)
  {
    var r := InlineFunction(inl, caller, ai, args, arena);
    var entry, srcs := inl.original.blocks[0], ClonedSources(inl.original);
    SiteValueBoundPositive(caller, ai);
    CalleeDefsNoUndef(inl.kind, inl.original);
    ValueMapKeepsUndef(inl.kind, entry, srcs, args, BlocksValueBound(caller.blocks));
    ClonesDefineNoUndef(r.ctx, r.scopes, entry, srcs, r.entryClones, r.clonedBlocks);
  }

  /** After one step `undef` is still `undef`: the value map leaves it alone,
      so every clone reads `undef` wherever the callee did, and no block of
      the caller defines it, so no such read can be captured by a caller
      value. */
  lemma UndefPassesThrough(inl: SILInliner, caller: Function, ai: CallSite, args: seq<ValueId>, arena: seq<Scope>)
    requires InlinePreconditions(inl, caller, ai, args, arena)
    ensures var r := InlineFunction(inl, caller, ai, args, arena);
      Remap(r.ctx.valueMap, Undef) == Undef && BlocksDefineNoUndef(r.caller.blocks)
  {
    var r := InlineFunction(inl, caller, ai, args, arena);
    var entry, srcs := inl.original.blocks[0], ClonedSources(inl.original);
    var ci := SiteIndex(caller, ai);
    var terms := RewrittenTerms(r.ctx, r.exits, entry, srcs);
    StepClonesNoUndef(inl, caller, ai, args, arena);
    InlineTakesPath(inl, caller, ai, args, arena);
    if IsFastPath(inl, ai) {
      FastPathNoUndef(caller, ci, ai.index, r.entryClones, ApplyResult(caller, ai), Remap(r.ctx.valueMap, entry.term.value));
    } else if ai.ApplySite? {
      SiteValueBoundPositive(caller, ai);
      SplitNoUndef(r.caller.blocks, caller.blocks, ci, ai.index, r.entryClones, r.clonedBlocks, ApplyResult(caller, ai),
                   r.retArg, ai.resultType, r.exits.returnTo, terms);
    } else {
      TryApplyNoUndef(r.caller.blocks, caller.blocks, ci, r.entryClones, r.clonedBlocks, terms);
    }
  }

  /** After an apply is inlined, by either path, nothing in the caller reads
      the apply's result any more. */
  lemma ApplyResultUnused(inl: SILInliner, caller: Function, ai: CallSite, args: seq<ValueId>, arena: seq<Scope>)
    requires InlinePreconditions(inl, caller, ai, args, arena) && ai.ApplySite?
    ensures !InlineFunction(inl, caller, ai, args, arena).caller.Uses(ApplyResult(caller, ai))
  {
    var first := BlocksValueBound(caller.blocks);
    var result := ApplyResult(caller, ai);
    ApplyResultBelow(caller, ai);
    if IsFastPath(inl, ai) {
      ReturnedAvoids(inl.kind, inl.original, args, first, result);
      FastPathResultUnused(inl, caller, ai, args, arena);
    } else {
      var r := InlineFunction(inl, caller, ai, args, arena);
      TermsAvoid(inl.kind, inl.original, args, first, result, r.ctx, r.exits);
      SplitResultUnused(inl, caller, ai, args, arena);
    }
  }

  /** An apply's result is a caller value, so it lies below the caller's
      value bound, and it is not `undef`. */
  lemma ApplyResultBelow(caller: Function, ai: CallSite)
    requires ValidSite(caller, ai) && ai.ApplySite? && BlocksDefineNoUndef(caller.blocks)
    ensures Undef != ApplyResult(caller, ai) < BlocksValueBound(caller.blocks)
  {
    assert BlockValueBound(caller.blocks[SiteIndex(caller, ai)]) <= BlocksValueBound(caller.blocks);
    assert DefinesNoUndef(caller.blocks[SiteIndex(caller, ai)]);
  }

  /** The value the callee returns maps to an argument or a fresh number. */
  lemma ReturnedAvoids(kind: InlineKind, callee: Function, args: seq<ValueId>, first: nat, x: ValueId)
    requires Cfg.WellFormedCfg(callee) && |callee.blocks[0].params| == |args| && callee.blocks[0].term.Return?
    requires ReadsOwnValues(kind, callee)
    requires x !in args && x < first && x != Undef
    ensures var entry := callee.blocks[0];
      Remap(InlineValueMap(kind, entry, ClonedSources(callee), args, first), entry.term.value) != x
  {
    var entry, srcs := callee.blocks[0], ClonedSources(callee);
    VisitedReadsAvoid(kind, callee, args, first, x);
    assert ([entry] + srcs)[0].Uses(entry.term.value);
  }

  /** No terminator the cloner rewrites reads `x`. */
  lemma TermsAvoid(kind: InlineKind, callee: Function, args: seq<ValueId>, first: nat, x: ValueId,
                   ctx: CloneContext, plan: ExitPlan)
    requires Cfg.WellFormedCfg(callee) && |callee.blocks[0].params| == |args|
    requires ReadsOwnValues(kind, callee)
    requires x !in args && x < first && x != Undef
    requires ctx.valueMap == InlineValueMap(kind, callee.blocks[0], ClonedSources(callee), args, first)
    ensures var terms := RewrittenTerms(ctx, plan, callee.blocks[0], ClonedSources(callee));
      forall j :: 0 <= j < |terms| ==> !terms[j].Uses(x)
  {
    VisitedReadsAvoid(kind, callee, args, first, x);
    RewrittenTermsAvoid(ctx, plan, callee.blocks[0], ClonedSources(callee), x);
  }

  /** The fast path redirects the result to the returned value's image,
      which is not the result itself. */
  lemma FastPathResultUnused(inl: SILInliner, caller: Function, ai: CallSite, args: seq<ValueId>, arena: seq<Scope>)
    requires InlinePreconditions(inl, caller, ai, args, arena) && IsFastPath(inl, ai)
    requires var entry := inl.original.blocks[0];
      Remap(InlineValueMap(inl.kind, entry, ClonedSources(inl.original), args, BlocksValueBound(caller.blocks)), entry.term.value)
        != ApplyResult(caller, ai)
    ensures !InlineFunction(inl, caller, ai, args, arena).caller.Uses(ApplyResult(caller, ai))
  {
    InlineTakesPath(inl, caller, ai, args, arena);
  }

  /** The split redirects every old read of the result to the return-to
      block's parameter; the rewritten terminators are the only other reads. */
  lemma SplitResultUnused(inl: SILInliner, caller: Function, ai: CallSite, args: seq<ValueId>, arena: seq<Scope>)
    requires InlinePreconditions(inl, caller, ai, args, arena) && ai.ApplySite? && !IsFastPath(inl, ai)
    requires var r := InlineFunction(inl, caller, ai, args, arena);
             var terms := RewrittenTerms(r.ctx, r.exits, inl.original.blocks[0], ClonedSources(inl.original));
      forall j :: 0 <= j < |terms| ==> !terms[j].Uses(ApplyResult(caller, ai))
    ensures !InlineFunction(inl, caller, ai, args, arena).caller.Uses(ApplyResult(caller, ai))
  {
    var r := InlineFunction(inl, caller, ai, args, arena);
    var terms := RewrittenTerms(r.ctx, r.exits, inl.original.blocks[0], ClonedSources(inl.original));
    InlineTakesPath(inl, caller, ai, args, arena);
    SplitRedirectsUses(inl, caller, ai, args, arena);
    SplitLeavesNoUse(r.caller.blocks, caller.blocks, SiteIndex(caller, ai), ai.index, r.entryClones, r.clonedBlocks,
                     ApplyResult(caller, ai), r.retArg, ai.resultType, r.exits.returnTo, terms);
  }
}

=== FILE: sil.dfy ===
/** The part of the SIL intermediate representation the inliner works on:
    values, instructions, terminators, basic blocks and functions, with value
    renaming (the operation behind use replacement and operand remapping). */
module Sil {
  import opened Wrappers
  import CostModel

  type ValueId = nat

  /** `undef`: the operand of an instruction that reads no defined value. It
      belongs to no function, and a well-formed function never defines it
      (`DefinesNoUndef`). */
  const Undef: ValueId := 0
  type BlockId = nat
  type TypeId = nat
  type FuncId = nat
  type ScopeId = nat

  /** A source location, as an opaque tag. An inlined location records the
      location of the call site it was inlined at. */
  datatype Loc =
    | SourceLoc(pos: nat)
    | InlinedLoc(callSite: Loc)
    | MandatoryInlinedLoc(callSite: Loc)

  /** Ownership of a block parameter; only the owned kind matters here. */
  datatype Ownership = Owned | OtherOwnership

  /** A block parameter: a phi-style value defined by its block. */
  datatype Param = Param(value: ValueId, ty: TypeId, ownership: Ownership)

  /** A non-terminator instruction. It defines the value `result`, reads its
      operands, and carries a debug scope (possibly null) and a location. */
  datatype Inst = Inst(result: ValueId, kind: CostModel.InstKind, operands: seq<ValueId>,
                       scope: Option<ScopeId>, loc: Loc)
  {
    predicate Uses(v: ValueId) {
      v in operands
    }

    function RenameValues(rho: ValueId -> ValueId): Inst {
      this.(operands := RenameSeq(operands, rho))
    }
  }

  /** The terminator that ends a basic block. Switches, checked-cast
      branches and the like are `OtherTerminator`, which only lists its
      value operands and destination blocks. */
  datatype Terminator =
    | Return(value: ValueId)
    | Throw(value: ValueId)
    | Branch(dest: BlockId, args: seq<ValueId>)
    | CondBranch(cond: ValueId, trueDest: BlockId, trueArgs: seq<ValueId>,
                 falseDest: BlockId, falseArgs: seq<ValueId>)
    | TryApply(callee: ValueId, args: seq<ValueId>, normalDest: BlockId, errorDest: BlockId)
    | Unreachable
    | OtherTerminator(operands: seq<ValueId>, dests: seq<BlockId>)
  {
    function Successors(): seq<BlockId> {
      match this
      case Return(_) => []
      case Throw(_) => []
      case Branch(d, _) => [d]
      case CondBranch(_, t, _, f, _) => [t, f]
      case TryApply(_, _, n, e) => [n, e]
      case Unreachable => []
      case OtherTerminator(_, ds) => ds
    }

    predicate Uses(v: ValueId) {
      match this
      case Return(x) => v == x
      case Throw(x) => v == x
      case Branch(_, args) => v in args
      case CondBranch(c, _, ta, _, fa) => v == c || v in ta || v in fa
      case TryApply(c, args, _, _) => v == c || v in args
      case Unreachable => false
      case OtherTerminator(ops, _) => v in ops
    }

    function RenameValues(rho: ValueId -> ValueId): Terminator {
      match this
      case Return(x) => Return(rho(x))
      case Throw(x) => Throw(rho(x))
      case Branch(d, args) => Branch(d, RenameSeq(args, rho))
      case CondBranch(c, t, ta, f, fa) => CondBranch(rho(c), t, RenameSeq(ta, rho), f, RenameSeq(fa, rho))
      case TryApply(c, args, n, e) => TryApply(rho(c), RenameSeq(args, rho), n, e)
      case Unreachable => Unreachable
      case OtherTerminator(ops, ds) => OtherTerminator(RenameSeq(ops, rho), ds)
    }

    function RenameBlocks(beta: BlockId -> BlockId): Terminator {
      match this
      case Return(x) => Return(x)
      case Throw(x) => Throw(x)
      case Branch(d, args) => Branch(beta(d), args)
      case CondBranch(c, t, ta, f, fa) => CondBranch(c, beta(t), ta, beta(f), fa)
      case TryApply(c, args, n, e) => TryApply(c, args, beta(n), beta(e))
      case Unreachable => Unreachable
      case OtherTerminator(ops, ds) => OtherTerminator(ops, seq(|ds|, i requires 0 <= i < |ds| => beta(ds[i])))
    }
  }

  /** A basic block: parameters, non-terminator instructions, terminator. */
  datatype Block = Block(id: BlockId, params: seq<Param>, insts: seq<Inst>, term: Terminator)
  {
    predicate Uses(v: ValueId) {
      (exists i :: 0 <= i < |insts| && insts[i].Uses(v)) || term.Uses(v)
    }

    function RenameValues(rho: ValueId -> ValueId): Block {
      this.(insts := RenameInsts(insts, rho), term := term.RenameValues(rho))
    }
  }

  /** How a function is called: native conventions, or foreign ones. */
  datatype Representation =
    | Thick | ObjCBlock | Thin | CFunctionPointer | Method | ObjCMethod | WitnessMethod | Closure

  /** A function: an ordered list of blocks, the first being the entry
      block, and the function's own debug scope. */
  datatype Function = Function(id: FuncId, repr: Representation, blocks: seq<Block>, scope: ScopeId)
  {
    predicate Uses(v: ValueId) {
      exists i :: 0 <= i < |blocks| && blocks[i].Uses(v)
    }

    function RenameValues(rho: ValueId -> ValueId): Function {
      this.(blocks := RenameBlockSeq(blocks, rho))
    }
  }

  // ---------------------------------------------------------------------------
  // Renaming values.
  // ---------------------------------------------------------------------------

  function RenameSeq(vs: seq<ValueId>, rho: ValueId -> ValueId): (r: seq<ValueId>)
    ensures |r| == |vs|
    ensures forall i :: 0 <= i < |vs| ==> r[i] == rho(vs[i])
  {
    seq(|vs|, i requires 0 <= i < |vs| => rho(vs[i]))
  }

  function RenameInsts(insts: seq<Inst>, rho: ValueId -> ValueId): (r: seq<Inst>)
    ensures |r| == |insts|
    ensures forall i :: 0 <= i < |insts| ==> r[i] == insts[i].RenameValues(rho)
  {
    seq(|insts|, i requires 0 <= i < |insts| => insts[i].RenameValues(rho))
  }

  function RenameBlockSeq(blocks: seq<Block>, rho: ValueId -> ValueId): (r: seq<Block>)
    ensures |r| == |blocks|
    ensures forall i :: 0 <= i < |blocks| ==> r[i] == blocks[i].RenameValues(rho)
  {
    seq(|blocks|, i requires 0 <= i < |blocks| => blocks[i].RenameValues(rho))
  }

  /** The value `v` is used after renaming exactly when some value renamed to
      `v` was used before. */
  lemma {:induction false} RenameSeqUses(vs: seq<ValueId>, rho: ValueId -> ValueId, v: ValueId)
    ensures v in RenameSeq(vs, rho) <==> exists u :: u in vs && rho(u) == v
  {
    var r := RenameSeq(vs, rho);
    if v in r {
      var i :| 0 <= i < |r| && r[i] == v;
      assert vs[i] in vs && rho(vs[i]) == v;
    }
    if exists u :: u in vs && rho(u) == v {
      var u :| u in vs && rho(u) == v;
      var i :| 0 <= i < |vs| && vs[i] == u;
      assert r[i] == v;
    }
  }

  lemma TerminatorRenameUses(t: Terminator, rho: ValueId -> ValueId, v: ValueId)
    ensures t.RenameValues(rho).Uses(v) <==> exists u :: t.Uses(u) && rho(u) == v
  {
    match t
    case Return(x) =>
    case Throw(x) =>
    case Branch(d, args) =>
      RenameSeqUses(args, rho, v);
    case CondBranch(c, tt, ta, ff, fa) =>
      RenameSeqUses(ta, rho, v);
      RenameSeqUses(fa, rho, v);
    case TryApply(c, args, n, e) =>
      RenameSeqUses(args, rho, v);
    case Unreachable =>
    case OtherTerminator(ops, ds) =>
      RenameSeqUses(ops, rho, v);
  }

  lemma BlockRenameUses(b: Block, rho: ValueId -> ValueId, v: ValueId)
    ensures b.RenameValues(rho).Uses(v) <==> exists u :: b.Uses(u) && rho(u) == v
  {
    var rb := b.RenameValues(rho);
    TerminatorRenameUses(b.term, rho, v);
    if exists i :: 0 <= i < |rb.insts| && rb.insts[i].Uses(v) {
      var i :| 0 <= i < |rb.insts| && rb.insts[i].Uses(v);
      RenameSeqUses(b.insts[i].operands, rho, v);
      var u :| u in b.insts[i].operands && rho(u) == v;
      assert b.insts[i].Uses(u);
    }
    if exists u :: b.Uses(u) && rho(u) == v {
      var u :| b.Uses(u) && rho(u) == v;
      if exists i :: 0 <= i < |b.insts| && b.insts[i].Uses(u) {
        var i :| 0 <= i < |b.insts| && b.insts[i].Uses(u);
        RenameSeqUses(b.insts[i].operands, rho, v);
        assert rb.insts[i].Uses(v);
      }
    }
  }

  /** Renaming a whole function: `v` is used afterwards exactly when some
      value renamed to `v` was used before. */
  lemma {:induction false} FunctionRenameUses(f: Function, rho: ValueId -> ValueId, v: ValueId)
    ensures f.RenameValues(rho).Uses(v) <==> exists u :: f.Uses(u) && rho(u) == v
  {
    var g := f.RenameValues(rho);
    if g.Uses(v) {
      var i :| 0 <= i < |g.blocks| && g.blocks[i].Uses(v);
      BlockRenameUses(f.blocks[i], rho, v);
      var u :| f.blocks[i].Uses(u) && rho(u) == v;
      assert f.Uses(u);
    }
    if exists u :: f.Uses(u) && rho(u) == v {
      var u :| f.Uses(u) && rho(u) == v;
      var i :| 0 <= i < |f.blocks| && f.blocks[i].Uses(u);
      BlockRenameUses(f.blocks[i], rho, v);
      assert g.blocks[i].Uses(v);
    }
  }

  // ---------------------------------------------------------------------------
  // Replacing all uses of a value.
  // ---------------------------------------------------------------------------

  /** The renaming that sends `from` to `to` and every other value to itself. */
  function Subst(from: ValueId, to: ValueId): ValueId -> ValueId {
    v => if v == from then to else v
  }

  /** Redirects every use of `from` in the function to `to`. Nothing but
      operands changes. */
  function ReplaceAllUsesWith(f: Function, from: ValueId, to: ValueId): (g: Function)
    ensures g.id == f.id && g.repr == f.repr && g.scope == f.scope && |g.blocks| == |f.blocks|
    ensures forall i :: 0 <= i < |f.blocks| ==>
              && g.blocks[i].id == f.blocks[i].id
              && g.blocks[i].params == f.blocks[i].params
              && |g.blocks[i].insts| == |f.blocks[i].insts|
              && g.blocks[i].term.Successors() == f.blocks[i].term.Successors()
    ensures from != to ==> !g.Uses(from)
    ensures g.Uses(to) <==> f.Uses(to) || f.Uses(from)
    ensures forall v :: v != from && v != to ==> (g.Uses(v) <==> f.Uses(v))
  {
    var g := f.RenameValues(Subst(from, to));
    FunctionRenameUses(f, Subst(from, to), from);
    FunctionRenameUses(f, Subst(from, to), to);
    assert forall v :: v != from && v != to ==> (g.Uses(v) <==> f.Uses(v)) by {
      forall v | v != from && v != to
        ensures g.Uses(v) <==> f.Uses(v)
      {
        FunctionRenameUses(f, Subst(from, to), v);
      }
    }
    forall i | 0 <= i < |f.blocks|
      ensures g.blocks[i].term.Successors() == f.blocks[i].term.Successors()
    {
      RenameKeepsSuccessors(f.blocks[i].term, Subst(from, to));
    }
    g
  }

  /** After replacing `from` by `to` in a block, `from` is no longer used,
      `to` is used where either was, and every other value is used as
      before. */
  lemma SubstBlockUses(b: Block, from: ValueId, to: ValueId, v: ValueId)
    requires from != to
    ensures b.RenameValues(Subst(from, to)).Uses(v) <==>
              if v == from then false else if v == to then b.Uses(from) || b.Uses(to) else b.Uses(v)
  {
    BlockRenameUses(b, Subst(from, to), v);
    if v == to && b.Uses(from) {
      assert Subst(from, to)(from) == v;
    }
    if v != from && b.Uses(v) {
      assert Subst(from, to)(v) == v;
    }
  }

  lemma SubstInstUses(i: Inst, from: ValueId, to: ValueId)
    requires from != to
    ensures !i.RenameValues(Subst(from, to)).Uses(from)
  {
    RenameSeqUses(i.operands, Subst(from, to), from);
  }

  lemma RenameKeepsSuccessors(t: Terminator, rho: ValueId -> ValueId)
    ensures t.RenameValues(rho).Successors() == t.Successors()
  {
  }

  // ---------------------------------------------------------------------------
  // Instruction kinds, counted with multiplicity.
  // ---------------------------------------------------------------------------

  function KindsOf(insts: seq<Inst>): (r: seq<CostModel.InstKind>)
    ensures |r| == |insts|
    ensures forall i :: 0 <= i < |insts| ==> r[i] == insts[i].kind
  {
    seq(|insts|, i requires 0 <= i < |insts| => insts[i].kind)
  }

  /** The kinds of the instructions of a list of blocks, block after block.
      How many instructions of kind `k` the blocks hold is
      `multiset(BlockKinds(blocks))[k]`. */
  function BlockKinds(blocks: seq<Block>): seq<CostModel.InstKind>
  {
    if blocks == [] then []
    else KindsOf(blocks[0].insts) + BlockKinds(blocks[1..])
  }

  lemma {:induction false} BlockKindsAppend(a: seq<Block>, b: seq<Block>)
    ensures BlockKinds(a + b) == BlockKinds(a) + BlockKinds(b)
  {
    if a == [] {
      assert a + b == b;
    } else {
      assert (a + b)[1..] == a[1..] + b;
      BlockKindsAppend(a[1..], b);
    }
  }

  lemma KindsOfAppend(a: seq<Inst>, b: seq<Inst>)
    ensures KindsOf(a + b) == KindsOf(a) + KindsOf(b)
  {
  }

  /** Two lists of blocks hold the same instruction kinds position by
      position. */
  predicate SameInsts(a: seq<Block>, b: seq<Block>) {
    |a| == |b| && forall i :: 0 <= i < |a| ==> KindsOf(a[i].insts) == KindsOf(b[i].insts)
  }

  /** Only the instructions count: ids, parameters and terminators do not. */
  lemma {:induction false} SameInstKinds(a: seq<Block>, b: seq<Block>)
    requires SameInsts(a, b)
    ensures BlockKinds(a) == BlockKinds(b)
  {
    if a != [] {
      SameInstKinds(a[1..], b[1..]);
    }
  }

  lemma BlockKindsSingle(b: Block)
    ensures BlockKinds([b]) == KindsOf(b.insts)
  {
    assert [b][1..] == [];
  }

  /** The kinds of a list of blocks, taken apart around position `i`. */
  lemma BlockKindsAround(blocks: seq<Block>, i: nat)
    requires i < |blocks|
    ensures BlockKinds(blocks) == BlockKinds(blocks[..i]) + KindsOf(blocks[i].insts) + BlockKinds(blocks[i + 1..])
  {
    assert blocks == blocks[..i] + [blocks[i]] + blocks[i + 1..];
    BlockKindsAppend(blocks[..i] + [blocks[i]], blocks[i + 1..]);
    BlockKindsAppend(blocks[..i], [blocks[i]]);
    BlockKindsSingle(blocks[i]);
  }

  lemma RenameInstsKinds(insts: seq<Inst>, rho: ValueId -> ValueId)
    ensures KindsOf(RenameInsts(insts, rho)) == KindsOf(insts)
  {
  }

  // ---------------------------------------------------------------------------
  // Finding blocks by id.
  // ---------------------------------------------------------------------------

  predicate UniqueLabels(blocks: seq<Block>) {
    forall i, j :: 0 <= i < j < |blocks| ==> blocks[i].id != blocks[j].id
  }

  /** The position of the first block with the given id, if any. */
  function IndexOfLabel(blocks: seq<Block>, l: BlockId): (r: Option<nat>)
    ensures r.Some? ==> r.value < |blocks| && blocks[r.value].id == l
    ensures r.Some? ==> forall j :: 0 <= j < r.value ==> blocks[j].id != l
    ensures r.None? <==> forall j :: 0 <= j < |blocks| ==> blocks[j].id != l
  {
    if blocks == [] then None
    else if blocks[0].id == l then Some(0)
    else match IndexOfLabel(blocks[1..], l)
      case None => None
      case Some(k) => Some(k + 1)
  }

  function Labels(blocks: seq<Block>): set<BlockId> {
    set i | 0 <= i < |blocks| :: blocks[i].id
  }

  // ---------------------------------------------------------------------------
  // Bounds on the ids a function mentions, for allocating fresh ones.
  // ---------------------------------------------------------------------------

  function Max(a: nat, b: nat): nat {
    if a < b then b else a
  }

  /** A number above every element of `vs`. */
  function SeqBound(vs: seq<nat>): (r: nat)
    ensures forall i :: 0 <= i < |vs| ==> vs[i] < r
  {
    if vs == [] then 0 else Max(vs[0] + 1, SeqBound(vs[1..]))
  }

  /** SIL never defines `undef`: no parameter and no instruction result of
      the block is `undef`. */
  predicate DefinesNoUndef(b: Block) {
    && (forall i :: 0 <= i < |b.params| ==> b.params[i].value != Undef)
    && (forall i :: 0 <= i < |b.insts| ==> b.insts[i].result != Undef)
  }

  predicate BlocksDefineNoUndef(blocks: seq<Block>) {
    forall i :: 0 <= i < |blocks| ==> DefinesNoUndef(blocks[i])
  }

  function ParamValues(ps: seq<Param>): (r: seq<ValueId>)
    ensures |r| == |ps| && forall i :: 0 <= i < |ps| ==> r[i] == ps[i].value
  {
    seq(|ps|, i requires 0 <= i < |ps| => ps[i].value)
  }

  function InstsBound(insts: seq<Inst>): (r: nat)
    ensures forall i :: 0 <= i < |insts| ==> insts[i].result < r
    ensures forall i, v: ValueId :: 0 <= i < |insts| && insts[i].Uses(v) ==> v < r
  {
    if insts == [] then 0
    else Max(Max(insts[0].result + 1, SeqBound(insts[0].operands)), InstsBound(insts[1..]))
  }

  function TermBound(t: Terminator): (r: nat)
    ensures forall v: ValueId :: t.Uses(v) ==> v < r
  {
    match t
    case Return(x) => x + 1
    case Throw(x) => x + 1
    case Branch(_, args) => SeqBound(args)
    case CondBranch(c, _, ta, _, fa) => Max(c + 1, Max(SeqBound(ta), SeqBound(fa)))
    case TryApply(c, args, _, _) => Max(c + 1, SeqBound(args))
    case Unreachable => 0
    case OtherTerminator(ops, _) => SeqBound(ops)
  }

  /** A value id above every value a block defines or uses. */
  function BlockValueBound(b: Block): (r: nat)
    ensures forall i :: 0 <= i < |b.params| ==> b.params[i].value < r
    ensures forall i :: 0 <= i < |b.insts| ==> b.insts[i].result < r
    ensures forall v: ValueId :: b.Uses(v) ==> v < r
  {
    Max(SeqBound(ParamValues(b.params)), Max(InstsBound(b.insts), TermBound(b.term)))
  }

  function BlocksValueBound(blocks: seq<Block>): (r: nat)
    ensures forall i :: 0 <= i < |blocks| ==> BlockValueBound(blocks[i]) <= r
  {
    if blocks == [] then 0 else Max(BlockValueBound(blocks[0]), BlocksValueBound(blocks[1..]))
  }

  /** A block id above every block id of the list. */
  function BlocksLabelBound(blocks: seq<Block>): (r: nat)
    ensures forall i :: 0 <= i < |blocks| ==> blocks[i].id < r
  {
    if blocks == [] then 0 else Max(blocks[0].id + 1, BlocksLabelBound(blocks[1..]))
  }

  /** A value at or above the bound is neither defined nor used by any
      block. */
  lemma FreshValueUnused(blocks: seq<Block>, v: ValueId)
    requires BlocksValueBound(blocks) <= v
    ensures forall i :: 0 <= i < |blocks| ==> !blocks[i].Uses(v)
    ensures forall i, j :: 0 <= i < |blocks| && 0 <= j < |blocks[i].insts| ==> blocks[i].insts[j].result != v
  {
    forall i | 0 <= i < |blocks| ensures !blocks[i].Uses(v) {
      assert BlockValueBound(blocks[i]) <= v;
    }
    forall i, j | 0 <= i < |blocks| && 0 <= j < |blocks[i].insts| ensures blocks[i].insts[j].result != v {
      assert BlockValueBound(blocks[i]) <= v;
    }
  }
}

=== FILE: wrappers.dfy ===
/** The optional-value datatype used wherever the inliner works with a
    pointer that may be null (a debug scope, the block after the caller
    block, a lookup that may fail). */
module Wrappers {

  datatype Option<+T> = None | Some(value: T) {

    /** The held value when there is one, `default` otherwise. */
    function GetOr(default: T): T {
      match this
      case Some(v) => v
      case None => default
    }
  }
}
